=== FILE: README.md ===
# Vehicle search client core, in Dafny

This project models the client-side state logic of the vehicle-search web app. It has four parts:

- **The vehicle store.** It holds the current page of listings and the pagination metadata. It also holds the filter criteria, the loading, error and first-load flags, the derived make and model lists, the client-side "offers" filter, and the key of the last list request. The store has getters and actions: list fetch with one-entry de-duplication, single-vehicle lookups, make/model derivation, filter merge and reset, and paging with a background prefetch.
- **The listing card's image carousel.**
- **The quick-filter selector** (all / new / used / offers).
- **The list view's two derived flags.**

Every action is a pure function from a state record to a state record. The network is never called. Each action that awaits a response takes it as a parameter:

- a list response or a thrown value (`ListOutcome`);
- a vehicle or a thrown value (`VehicleOutcome`).

A thrown value is either an `Error` with a message or something else (`Thrown`); this models the `instanceof Error` test. Each action also returns the request it sent. So "fetching twice sends one request" and "the prefetch warms the page the user goes to next" are statements about those returned requests. The API base URL from the runtime configuration is a plain string parameter.

Modules, one per file:

| module | role |
|---|---|
| `Wrappers` | `Option` |
| `Decimal` | `String(n)` for integers, with its inverse |
| `StringOrder` | the default `Array.prototype.sort` order on strings, and sort-with-dedup (`[...new Set(xs)].sort()`) |
| `VehicleTypes` | the records: vehicle, metadata, the twelve-field filter object; shallow merge |
| `QueryBuilder` | the query-string builder and the request key |
| `VehicleStore` | the store state, getters and actions |
| `VehicleCard` | the image carousel and the classification badge |
| `FilterSelection` | `activeFilter` and `setFilter` |
| `VehicleList` | `hasVehicles` and `showNoResults` |

Behaviours of the code that the model keeps, because they are what the code does:

- **Query builder.**
  - It drops `""` and `undefined` values but keeps a page of `0`.
  - The filter object always carries its twelve keys in declaration order: the initial state and `resetFilters` build it that way, and spreads keep existing keys in place. So `Object.entries` visits the keys in that order, and a key holding `undefined` stays in its place.
  - The request key is the ordered list of name/value pairs, not its percent-encoded string. Serialization is injective, so comparing the pairs is comparing the strings.
- **List fetch.**
  - Its `finally` block runs on the early "repeat" return too. So even a skipped fetch ends with `loading` false and `initialLoadComplete` true.
  - A skipped fetch keeps an old error message; only a fetch that is actually sent clears it.
- **Paging.**
  - `nextPage` compares the criteria's `page`, not the metadata's `current_page`, against `last_page`. `previousPage` likewise tests the criteria's page.
  - `nextPage` from page 0 goes to page 2, because `(0 || 1) + 1` is 2.
  - `nextPage` with the page key holding `undefined` does nothing. In the same state, `prefetchNextPage` still requests page 2, because `undefined >= n` is false.
- **Prefetch timing.** Each paging action starts the list fetch and then the prefetch without awaiting either. The prefetch therefore reads the moved page but the metadata from before the fetch's response. `VehicleStore.PrefetchSeesMetadataBeforeResponse` states this.
- **Offers filter.** The "offers" choice filters only the listings of the page the server returned. While it is active, the pager is hidden (`totalPages` is 0).
- **Carousel with no images.** `previousImage` on a listing with no images sets the index to -1. There `currentImage` is null.

## Model

| member | source | states |
|---|---|---|
| `VehicleTypes.Merge` | stores/vehicle.ts:180-182 | `{ ...filters, ...patch }`: each key present in the patch takes the patch's value, and every other key keeps its old value |
| `VehicleTypes.MergeAssociative` | stores/vehicle.ts:180-182 | applying two patches in turn equals applying their merge once |
| `VehicleTypes.MergeIdempotent` | stores/vehicle.ts:180-182 | applying the same patch twice equals applying it once |
| `VehicleTypes.FiltersExtensional` | types/vehicle.ts:82-95 | two filter objects that agree on all twelve keys are equal |
| `VehicleTypes.WithPageKeepsOthers` | stores/vehicle.ts:203 | assigning the page leaves the other eleven keys unchanged |
| `Decimal.IntToDecimalRoundTrip` | stores/vehicle.ts:89 | `String(n)` of an integer parses back to `n` |
| `Decimal.IntToDecimal` | stores/vehicle.ts:89 | `String(n)` of an integer in canonical form: a non-empty string of digits without leading zeros, after a `-` exactly when `n` is negative |
| `Decimal.IntToDecimalInjective` | stores/vehicle.ts:89 | distinct integers render as distinct strings |
| `StringOrder.SortedDistinct` | stores/vehicle.ts:163 | `[...new Set(xs)].sort()` is strictly increasing in string order and holds exactly the values of `xs` |
| `StringOrder.SortedDistinctCanonical` | stores/vehicle.ts:163 | any strictly increasing list with the same values as `xs` is that result, so the result is unique |
| `StringOrder.LessTransitive` | stores/vehicle.ts:163 | the default sort order is transitive |
| `StringOrder.LessTotal` | stores/vehicle.ts:163 | any two distinct strings are ordered one way or the other |
| `QueryBuilder.ApiNameInjective` | stores/vehicle.ts:70-83 | the camelCase to snake_case table never maps two filter keys to the same API name |
| `QueryBuilder.ApiNameRoundTrip` | stores/vehicle.ts:70-83 | the table's reverse lookup recovers the key from its API name |
| `QueryBuilder.QueryFromComplete` | stores/vehicle.ts:86-91 | each key from a given key onwards whose value is kept contributes its entry |
| `QueryBuilder.QueryFromSound` | stores/vehicle.ts:86-91 | every emitted entry is the entry of its own key, and that key is at or after the starting key |
| `QueryBuilder.QueryFromOrdered` | stores/vehicle.ts:86-91 | entries come out in the declaration order of the filter object |
| `QueryBuilder.KeptValuesSpec` | stores/vehicle.ts:86-91 | the kept values of the whole object are exactly the keys with kept values, in declaration order |
| `QueryBuilder.BuildQueryCharacterization` | stores/vehicle.ts:86-93 | the query has a parameter named after a key iff that key's value is kept, and the parameter's value is `String(value)` |
| `QueryBuilder.BuildQueryOrdered` | stores/vehicle.ts:86-93 | parameter names follow the filter object's key order, so no API name appears twice |
| `QueryBuilder.BuildQuery` | stores/vehicle.ts:86-93 | every sent parameter is some key's API name paired with that key's kept value, rendered |
| `QueryBuilder.SameQueryIffSameEntries` | stores/vehicle.ts:86-93 | two filter objects send the same query exactly when every key contributes the same entry (or none) to both |
| `QueryBuilder.SameRequestIffSameEntries` | stores/vehicle.ts:94 | two list request keys are equal exactly when the API bases are equal and every key contributes the same entry |
| `QueryBuilder.BuildQueryOffPage` | stores/vehicle.ts:253-258 | two filter objects that differ only in the page send the same parameters apart from `page` |
| `QueryBuilder.ZeroPageKept` | stores/vehicle.ts:87 | a page number of 0 is still sent as `page=0` |
| `QueryBuilder.EmptyTextOmitted` | stores/vehicle.ts:87 | a key whose value is `""` sends no parameter |
| `QueryBuilder.DefaultQuery` | stores/vehicle.ts:9-22 | the initial criteria send only `page=1` and `results_per_page=10` |
| `QueryBuilder.MakeAndMinPriceQuery` | stores/vehicle.ts:86-93 | choosing make Ford and minimum price 5000 on the defaults sends `page`, `results_per_page`, `make`, `min_price`, in that order, and nothing else |
| `VehicleStore.OnlyOffers` | stores/vehicle.ts:35 | `vehicles.filter(v => v.has_offer)` keeps only listings with an offer, each as many times as it occurs in the input |
| `VehicleStore.OnlyOffersOrdered` | stores/vehicle.ts:35 | the offers filter keeps the listings in their original order (a subsequence) |
| `VehicleStore.FilteredVehicles` | stores/vehicle.ts:33-38 | with the offers filter on: only offers, with their multiplicities; otherwise the list as loaded |
| `VehicleStore.FilteredVehiclesOrdered` | stores/vehicle.ts:33-38 | the shown list is always an order-preserving selection of the loaded list |
| `VehicleStore.HasVehicles` | stores/vehicle.ts:39 | true iff some listing is loaded |
| `VehicleStore.TotalPages` | stores/vehicle.ts:40-46 | 0 while filtering for offers or without metadata, else the metadata's last page |
| `VehicleStore.CurrentPage` | stores/vehicle.ts:47 | the metadata's current page, with a missing or zero page read as 1; never 0 |
| `VehicleStore.TotalVehicles` | stores/vehicle.ts:48-53 | the number of shown offers while filtering for offers, else the metadata's total (0 without metadata) |
| `VehicleStore.NewVehiclesCount` | stores/vehicle.ts:54 | the metadata's new-vehicle counter, or 0 when the metadata or the counter is missing |
| `VehicleStore.UsedVehiclesCount` | stores/vehicle.ts:55 | the used-vehicle counter, or 0 when missing |
| `VehicleStore.OfferVehiclesCount` | stores/vehicle.ts:56 | the offer counter, or 0 when missing |
| `VehicleStore.FetchVehicles` | stores/vehicle.ts:60-122 | always ends not loading and with the first load complete; sends nothing iff the key repeats the last one while listings are shown, and then changes nothing else; on success stores data, metadata and key and clears the error; on failure keeps data, metadata and key and records the message or 'Failed to fetch vehicles'; never touches criteria, client filter, current vehicle or the derived lists |
| `VehicleStore.IsRepeatIffSameEntries` | stores/vehicle.ts:94-99 | a fetch is skipped exactly when listings are loaded and the last stored request went to the same API base with, key by key, the same sent entries |
| `VehicleStore.FetchVehiclesSettles` | stores/vehicle.ts:97-99 | after a fetch that stored a non-empty page, fetching again with the same criteria sends nothing and leaves the store unchanged |
| `VehicleStore.FetchFailureKeepsPage` | stores/vehicle.ts:115-117 | a failed fetch leaves the listings and metadata as they were |
| `VehicleStore.VehicleByIdUrl` | stores/vehicle.ts:130 | the lookup URL is the API base and `/vehicles/`, followed by a well-formed decimal numeral whose value is the id |
| `VehicleStore.VehicleByIdUrlInjective` | stores/vehicle.ts:130 | different ids request different URLs |
| `VehicleStore.VehicleByVrmUrl` | stores/vehicle.ts:148 | the lookup URL is the API base and `/vehicles/vrm/`, followed by the registration exactly as given |
| `VehicleStore.VehicleUrlsDisjoint` | stores/vehicle.ts:124-158 | a lookup by id never requests the URL of a lookup by registration |
| `VehicleStore.LoadVehicle` | stores/vehicle.ts:124-158 | shared body of both lookups: on success it sets and returns the vehicle and clears the error; on failure it returns null, keeps the current vehicle and records the message or 'Failed to fetch vehicle'; it ends not loading and leaves the list state alone |
| `VehicleStore.FetchVehicleById` | stores/vehicle.ts:124-140 | requests `/vehicles/{id}`, with the success and failure effects above; only `currentVehicle`, `error` and `loading` can change |
| `VehicleStore.FetchVehicleByVrm` | stores/vehicle.ts:142-158 | requests `/vehicles/vrm/{vrm}`, with the same effects; only `currentVehicle`, `error` and `loading` can change |
| `VehicleStore.VehicleLookupKeepsListCache` | stores/vehicle.ts:124-158 | a lookup does not change whether the next list fetch is skipped as a repeat |
| `VehicleStore.MakesOf` | stores/vehicle.ts:163 | `vehicles.map(v => v.make)` holds exactly the makes of the listings |
| `VehicleStore.ModelsOf` | stores/vehicle.ts:175 | `vehicles.map(v => v.model)` holds exactly the models of the listings |
| `VehicleStore.UniqueSorted` | stores/vehicle.ts:163-175 | `[...new Set(xs)].sort()`: strictly increasing, and holding exactly the values of `xs` |
| `VehicleStore.ModelsOfMake` | stores/vehicle.ts:173-175 | the models of exactly the listings of the given make |
| `VehicleStore.FetchAvailableMakes` | stores/vehicle.ts:160-166 | with listings loaded: the makes, sorted and without duplicates; with none, the state is unchanged; nothing else changes |
| `VehicleStore.AvailableMakesCanonical` | stores/vehicle.ts:160-166 | the derived makes are the only sorted duplicate-free list of those makes |
| `VehicleStore.FetchAvailableMakesIdempotent` | stores/vehicle.ts:160-166 | deriving the makes a second time changes nothing |
| `VehicleStore.FetchAvailableModels` | stores/vehicle.ts:168-178 | with listings loaded: the models (of the given make when one is given and non-empty), sorted and without duplicates; with none, unchanged |
| `VehicleStore.UpdateFilters` | stores/vehicle.ts:180-182 | patch keys override, other keys stay, and no other field changes |
| `VehicleStore.UpdateFiltersCompose` | stores/vehicle.ts:180-182 | two updates in a row equal one update with the merged patch |
| `VehicleStore.ResetFilters` | stores/vehicle.ts:184-200 | the initial criteria and an empty client filter, nothing else changed |
| `VehicleStore.ResetFiltersIdempotent` | stores/vehicle.ts:184-200 | resetting twice is the same as resetting once |
| `VehicleStore.ResetThenUpdate` | stores/vehicle.ts:180-200 | reset then update yields the defaults merged with the patch |
| `VehicleStore.PrefetchNextPage` | stores/vehicle.ts:227-258 | skipped iff there is no metadata or the page is at or past the last one; otherwise it goes to the same API base, sends `page` as `(page \|\| 1) + 1`, and sends every other parameter exactly as the current list request does |
| `VehicleStore.SetPage` | stores/vehicle.ts:202-207 | the page becomes exactly the argument, with no bounds check, and no other criterion changes; the moved criteria are then fetched (skipped iff a repeat, else requested), the settled state is that fetch's, and the prefetch is computed on the moved criteria with the metadata from before the response |
| `VehicleStore.NextPage` | stores/vehicle.ts:209-216 | nothing happens without metadata, without a page, or at or past the last page; otherwise the page becomes `(page \|\| 1) + 1`, the moved criteria are fetched (skipped iff a repeat, else requested), the settled state is that fetch's, and the prefetch is computed on the moved criteria with the old metadata |
| `VehicleStore.PreviousPage` | stores/vehicle.ts:218-225 | nothing happens unless the page is above 1; otherwise it decrements, the moved criteria are fetched (skipped iff a repeat, else requested), the settled state is that fetch's, and the prefetch is computed on the moved criteria with the old metadata |
| `VehicleStore.NextPageKeepsRange` | stores/vehicle.ts:209-216 | from a page in `1..last_page` the next page stays in that range |
| `VehicleStore.PreviousPageKeepsRange` | stores/vehicle.ts:218-225 | from a page in `1..last_page` the previous page stays in that range |
| `VehicleStore.NextThenPrevious` | stores/vehicle.ts:209-225 | below the last page, next then previous restores the criteria |
| `VehicleStore.PrefetchIsNextRequest` | stores/vehicle.ts:209-258 | the prefetched request is exactly the request of the criteria the next `nextPage` moves to |
| `VehicleStore.PrefetchSeesMetadataBeforeResponse` | stores/vehicle.ts:202-225 | after a page move the prefetch is sent exactly when the metadata from before the response allows it, while one issued after a sent fetch had settled would follow the response's `last_page` |
| `VehicleStore.PrefetchWithoutPage` | stores/vehicle.ts:209-235 | without a page `nextPage` does nothing, while the prefetch requests page 2 |
| `VehicleStore.NextPageFromZero` | stores/vehicle.ts:211 | `nextPage` from page 0 goes to page 2 |
| `VehicleCard.CurrentImage` | features/vehicle/components/VehicleCard.ts:33-38 | an image is shown only when the index is on an image with a non-empty URL; the shown URL is always the medium URL of one of the listing's images |
| `VehicleCard.TotalImages` | features/vehicle/components/VehicleCard.ts:25-27 | the image count is the length of the image list, and is 0 exactly when the listing has no image |
| `VehicleCard.CurrentImageFollowsNavigation` | features/vehicle/components/VehicleCard.ts:33-72 | the image shown is the same again after going round all the images, after forward then back, and after back then forward |
| `VehicleCard.NavigationMovesIffMultiple` | features/vehicle/components/VehicleCard.ts:29-72 | from an image, each button moves the index exactly when the listing has more than one image |
| `VehicleCard.HandleImageError` | features/vehicle/components/VehicleCard.ts:40-43 | afterwards the error flag is set and the loaded flag is clear; nothing else changes |
| `VehicleCard.HandleImageLoad` | features/vehicle/components/VehicleCard.ts:45-48 | afterwards the loaded flag is set and the error flag is clear; nothing else changes |
| `VehicleCard.NextImage` | features/vehicle/components/VehicleCard.ts:50-60 | marks the carousel as used, direction forward, clears the loaded and error flags |
| `VehicleCard.PreviousImage` | features/vehicle/components/VehicleCard.ts:62-72 | marks the carousel as used, direction backward, clears the loaded and error flags |
| `VehicleCard.NextImageStep` | features/vehicle/components/VehicleCard.ts:54-58 | within range, forward is `+1` modulo the number of images |
| `VehicleCard.PreviousImageStep` | features/vehicle/components/VehicleCard.ts:66-70 | within range, backward is `-1` modulo the number of images |
| `VehicleCard.NavigationKeepsRange` | features/vehicle/components/VehicleCard.ts:50-72 | with the index on an image, both moves keep it on an image |
| `VehicleCard.NextImageRecovers` | features/vehicle/components/VehicleCard.ts:54-58 | from any non-negative index, forward lands on an image when there is one |
| `VehicleCard.PreviousImageWithoutImages` | features/vehicle/components/VehicleCard.ts:66-70 | with no images, backward sets the index to -1 and no image is shown |
| `VehicleCard.NavigationInverse` | features/vehicle/components/VehicleCard.ts:50-72 | backward undoes forward and forward undoes backward |
| `VehicleCard.NextImageTimesModulo` | features/vehicle/components/VehicleCard.ts:50-60 | `k` forward moves advance the index by `k` modulo the number of images |
| `VehicleCard.FullCircle` | features/vehicle/components/VehicleCard.ts:50-60 | as many forward moves as there are images return to the starting image |
| `VehicleCard.SingleImageStays` | features/vehicle/components/VehicleCard.ts:29-72 | with one image, neither button moves off it, and the buttons' "multiple images" condition is false |
| `VehicleCard.TransitionsKeepFlagsConsistent` | features/vehicle/components/VehicleCard.ts:40-72 | no transition leaves the image both loaded and failed |
| `VehicleCard.ClassificationClass` | features/vehicle/components/VehicleCard.ts:19-23 | the badge style is one of the two class names |
| `VehicleCard.ClassificationClassNew` | features/vehicle/components/VehicleCard.ts:19-23 | the new style is chosen iff the classification is "new" in some mix of upper and lower case |
| `FilterSelection.ActiveFilter` | features/vehicle/components/VehicleFilters.ts:7-18 | 'offers' whenever the client filter is on; otherwise 'new' or 'used' exactly when the classification is exactly that word, and 'all' for anything else |
| `FilterSelection.ChoicePatch` | features/vehicle/components/VehicleFilters.ts:24-33 | "all" applies no patch; every other choice sets page 1; "new" sets the classification to "new", "used" to "used", and "offers" leaves it out; no other key is touched |
| `FilterSelection.Select` | features/vehicle/components/VehicleFilters.ts:20-34 | after a choice, the criteria are the defaults except the classification ("new", "used" or ""); the client filter is on only for offers; nothing else changes |
| `FilterSelection.SetFilter` | features/vehicle/components/VehicleFilters.ts:20-37 | the fetch after the choice keeps the chosen criteria and client filter and ends not loading; it is skipped exactly when it repeats the last request, and otherwise requests the chosen criteria; on success it stores the page and metadata and clears the error, on failure it keeps the previous listings and metadata |
| `FilterSelection.SetFilterRoundTrip` | features/vehicle/components/VehicleFilters.ts:7-37 | after choosing a button, that button is the active one, whatever the fetch returns |
| `FilterSelection.SetFilterOffersShowsOffers` | features/vehicle/components/VehicleFilters.ts:29-36 | after choosing "offers" and a sent fetch that returns a page, the list shows exactly that page's offers, in order, and the pager reports 0 pages |
| `FilterSelection.SetFilterIdempotent` | features/vehicle/components/VehicleFilters.ts:20-37 | choosing the same button twice leaves the criteria and client filter as choosing it once |
| `FilterSelection.SetFilterAllIsReset` | features/vehicle/components/VehicleFilters.ts:20-37 | choosing "all" leaves criteria and client filter as a reset does |
| `FilterSelection.SetFilterFirstPage` | features/vehicle/components/VehicleFilters.ts:26-32 | every choice starts again from page 1 |
| `FilterSelection.SetFilterForgetsPrevious` | features/vehicle/components/VehicleFilters.ts:22 | the criteria after a choice do not depend on the criteria before it |
| `VehicleList.HasVehiclesShown` | features/vehicle/components/VehicleList.ts:9 | true iff the given list holds some listing |
| `VehicleList.ShowNoResults` | features/vehicle/components/VehicleList.ts:10 | true iff the first load is complete and the list holds no listing at all |
| `VehicleList.ViewAgreesWithStore` | features/vehicle/components/VehicleList.ts:9 | a shown listing means the store's `hasVehicles` holds; without the offers filter the view flag and the store getter agree |
| `VehicleList.ListOrMessage` | features/vehicle/components/VehicleList.ts:9-10 | the list and the message are never both shown; after the first load one of them is |
| `VehicleList.NoMessageBeforeFirstLoad` | features/vehicle/components/VehicleList.ts:10 | before the first load completes the message is never shown, in particular in the store's initial state |
| `VehicleList.FetchDecidesView` | features/vehicle/components/VehicleList.ts:9-10 | after any list fetch exactly one of list and message is shown |
| `VehicleList.EmptyPageShowsMessage` | features/vehicle/components/VehicleList.ts:10 | a sent fetch that returns an empty page shows the message |

## Left out

- Network calls and the runtime configuration. Responses and thrown values are parameters; the API base URL is a string parameter.
- The 500 ms minimum loading time (`Date.now`, `setTimeout`) and all `console` logging. Neither affects the state once an action has settled.
- Interleaving of un-awaited fetches and prefetches. Each action is one atomic step, and out-of-order responses are not modelled. The one ordering effect inside an action, the prefetch reading the old metadata, is modelled.
- Prefetch responses. The prefetch result is discarded and its failure swallowed, so only the request is returned. `VehicleStore.PrefetchNextPage` returns no state, so "never changes the store" holds by its type.
- Percent-encoding and `URLSearchParams.toString()`. The query is the list of name/value pairs before encoding. The request key is that list with the API base, which stays fixed for a running app.
- The `apiKeyMap[key] || key` fallback for unknown keys. The filter record has only the twelve declared keys, so the fallback is unreachable.
- Explicit `undefined` or `null` values inside a patch passed to `updateFilters`. In a patch, `None` is a key the patch leaves out, so a patch cannot set a key to `undefined`.
- The insertion order of keys missing from the filter object. Every reachable filter object carries all twelve keys, so a missing key that `Object.entries` would visit last never arises.
- `String(value)` and template interpolation for non-integer numbers, NaN and infinities. Page numbers and ids are integers here.
- `Decimal.IntToDecimal`: page numbers and ids are assumed to be integers of magnitude below 2^53. JavaScript numbers are doubles, so above 2^53 `(page || 1) + 1` stops changing, and from 10^21 on `String(n)` and `${id}` print exponent form (`1e+21`). The round trip and the `+ 1` of `VehicleStore.NextPage` hold for the model's unbounded integers.
- Null `media_urls` or a null vehicle list, guarded in the source by `?.` and `&&`. Both are non-null sequences here, matching their declared types.
- `VehicleCard.ClassificationClass`: `toLowerCase` is modelled for ASCII letters only. No non-ASCII character lowercases to `n`, `e` or `w`, so the "new" test is unaffected.
- `StringOrder.Less`: JavaScript's default sort compares UTF-16 code units, and the model compares characters. The two orders differ only for characters outside the Basic Multilingual Plane.
- `goToVehicle` and the router, `formatPrice` and `formatMileage` (locale and floating-point formatting), and Vue/Pinia reactivity.
- Vehicle fields that no modelled logic reads.

=== FILE: decimal.dfy ===
/**
 * Decimal rendering of integers, the `String(value)` conversion that the query
 * builder applies to numeric filter values, together with its inverse.
 */
module Decimal {

  predicate IsDigit(c: char) {
    '0' <= c <= '9'
  }

  predicate AllDigits(s: string) {
    forall i :: 0 <= i < |s| ==> IsDigit(s[i])
  }

  function DigitChar(d: int): (c: char)
    requires 0 <= d < 10
    ensures IsDigit(c)
  {
    (48 + d) as char
  }

  function DigitOf(c: char): (d: nat)
    requires IsDigit(c)
    ensures d < 10
  {
    c as int - 48
  }

  /** Most significant digit first, no leading zeros. */
  function NatToDecimal(n: nat): (s: string)
    ensures |s| >= 1
    ensures AllDigits(s)
    ensures |s| > 1 ==> s[0] != '0'
    decreases n
  {
    if n < 10 then [DigitChar(n)] else NatToDecimal(n / 10) + [DigitChar(n % 10)]
  }

  /** JavaScript's `String(n)` for an integral number. */
  function IntToDecimal(n: int): (s: string)
    ensures |s| >= 1
    ensures n >= 0 ==> AllDigits(s)
    ensures n < 0 ==> s[0] == '-' && AllDigits(s[1..])
    ensures n >= 0 && |s| > 1 ==> s[0] != '0'
    ensures n < 0 ==> |s| >= 2 && s[1] != '0'
  {
    if n < 0 then "-" + NatToDecimal(-n) else NatToDecimal(n)
  }

  /** The value of a string of decimal digits, read most significant first. */
  function DigitsValue(s: string): nat
    requires AllDigits(s)
    decreases |s|
  {
    if |s| == 0 then 0 else DigitsValue(s[..|s| - 1]) * 10 + DigitOf(s[|s| - 1])
  }

  /** Reads back what IntToDecimal writes: an optional minus sign, then digits. */
  function DecimalValue(s: string): int
    requires (|s| > 0 && s[0] == '-' && AllDigits(s[1..])) || AllDigits(s)
  {
    if |s| > 0 && s[0] == '-' then 0 - DigitsValue(s[1..]) as int else DigitsValue(s)
  }

  lemma {:induction false} NatToDecimalRoundTrip(n: nat)
    ensures DigitsValue(NatToDecimal(n)) == n
    decreases n
  {
    if n >= 10 {
      var prefix := NatToDecimal(n / 10);
      var s := prefix + [DigitChar(n % 10)];
      assert s[..|s| - 1] == prefix;
      NatToDecimalRoundTrip(n / 10);
    }
  }

  /** Rendering is lossless, so distinct numeric filter values give distinct query values. */
  lemma IntToDecimalRoundTrip(n: int)
    ensures DecimalValue(IntToDecimal(n)) == n
  {
    var digits := NatToDecimal(if n < 0 then -n else n);
    NatToDecimalRoundTrip(if n < 0 then -n else n);
    assert IsDigit(digits[0]);
    if n < 0 {
      assert ("-" + digits)[1..] == digits;
    }
  }

  lemma IntToDecimalInjective(a: int, b: int)
    requires IntToDecimal(a) == IntToDecimal(b)
    ensures a == b
  {
    IntToDecimalRoundTrip(a);
    IntToDecimalRoundTrip(b);
  }
}

=== FILE: filter_selection.dfy ===
/**
 * The quick-filter buttons above the list: the button shown as active is derived
 * from the store, and choosing a button resets the criteria, applies that
 * button's criteria and fetches.
 */
module FilterSelection {
  import opened Wrappers
  import opened VehicleTypes
  import opened QueryBuilder
  import opened VehicleStore

  datatype FilterChoice = All | New | Used | Offers

  /** `activeFilter`: the client-side offers filter wins over the classification. */
  function ActiveFilter(s: StoreState): (f: FilterChoice)
    ensures s.clientFilter == OffersFilter ==> f == Offers
    ensures s.clientFilter != OffersFilter ==>
              (f == New <==> s.filters.advertClassification == Some("new"))
              && (f == Used <==> s.filters.advertClassification == Some("used"))
              && f != Offers
  {
    if s.clientFilter == OffersFilter then Offers
    else if s.filters.advertClassification == Some("new") then New
    else if s.filters.advertClassification == Some("used") then Used
    else All
  }

  /** The criteria patch a choice applies after the reset, if any. */
  function ChoicePatch(choice: FilterChoice): (p: Option<VehicleFilters>)
    ensures p.None? <==> choice == All
    ensures p.Some? ==> p.value.page == Some(1)
    ensures p.Some? ==> forall f :: f != Page && f != AdvertClassification ==> Get(p.value, f).None?
    ensures p.Some? ==> (p.value.advertClassification.Some? <==> choice == New || choice == Used)
    ensures p.Some? ==>
              p.value.advertClassification == (match choice case New => Some("new") case Used => Some("used") case _ => None)
  {
    match choice
    case All => None
    case New => Some(NoFilters.(advertClassification := Some("new"), page := Some(1)))
    case Used => Some(NoFilters.(advertClassification := Some("used"), page := Some(1)))
    case Offers => Some(NoFilters.(page := Some(1)))
  }

  /** The store right before `setFilter` awaits the fetch. */
  function Select(s: StoreState, choice: FilterChoice): (r: StoreState)
    ensures r.filters == DefaultFilters.(advertClassification := r.filters.advertClassification)
    ensures r.filters.advertClassification
         == Some(match choice case New => "new" case Used => "used" case _ => "")
    ensures r.clientFilter == if choice == Offers then OffersFilter else ""
    ensures r.(filters := s.filters, clientFilter := s.clientFilter) == s
  {
    var reset := ResetFilters(s);
    var flagged := if choice == Offers then reset.(clientFilter := OffersFilter) else reset;
    match ChoicePatch(choice)
    case None => flagged
    case Some(patch) =>
      FiltersExtensional(Merge(DefaultFilters, patch),
                         DefaultFilters.(advertClassification := Merge(DefaultFilters, patch).advertClassification));
      UpdateFilters(flagged, patch)
  }

  /** `setFilter(choice)`: reset, apply the choice, fetch. */
  function SetFilter(s: StoreState, apiBase: string, choice: FilterChoice, outcome: ListOutcome): (r: Fetched)
    ensures r.state.filters == Select(s, choice).filters && r.state.clientFilter == Select(s, choice).clientFilter
    ensures r.request.None? || r.request == Some(ListRequest(apiBase, r.state.filters))
    ensures !r.state.loading && r.state.initialLoadComplete
    ensures r.request.None? <==> IsRepeat(Select(s, choice), apiBase)
    ensures r.request.Some? && outcome.ListSuccess? ==>
              r.state.vehicles == outcome.data && r.state.metadata == Some(outcome.meta) && r.state.error.None?
    ensures r.request.Some? && outcome.ListFailure? ==>
              r.state.vehicles == s.vehicles && r.state.metadata == s.metadata
  {
    FetchVehicles(Select(s, choice), apiBase, outcome)
  }

  /** Choosing "offers" and loading a page shows exactly that page's offers, with the pager hidden. */
  lemma SetFilterOffersShowsOffers(s: StoreState, apiBase: string, data: seq<Vehicle>, meta: ResponseMetadata)
    requires !IsRepeat(Select(s, Offers), apiBase)
    ensures var t := SetFilter(s, apiBase, Offers, ListSuccess(data, meta)).state;
            FilteredVehicles(t) == OnlyOffers(data) && TotalPages(t) == 0
  {
  }

  /** Choosing a button makes it the active one, whatever the fetch returns. */
  lemma SetFilterRoundTrip(s: StoreState, apiBase: string, choice: FilterChoice, outcome: ListOutcome)
    ensures ActiveFilter(SetFilter(s, apiBase, choice, outcome).state) == choice
  {
    var t := SetFilter(s, apiBase, choice, outcome).state;
    assert t.clientFilter == (if choice == Offers then OffersFilter else "");
  }

  /** Choosing the same button twice leaves the criteria as choosing it once. */
  lemma SetFilterIdempotent(s: StoreState, apiBase: string, choice: FilterChoice, o1: ListOutcome, o2: ListOutcome)
    ensures SetFilter(SetFilter(s, apiBase, choice, o1).state, apiBase, choice, o2).state.filters
         == SetFilter(s, apiBase, choice, o1).state.filters
    ensures SetFilter(SetFilter(s, apiBase, choice, o1).state, apiBase, choice, o2).state.clientFilter
         == SetFilter(s, apiBase, choice, o1).state.clientFilter
  {
  }

  /** "All" is a plain reset. */
  lemma SetFilterAllIsReset(s: StoreState, apiBase: string, outcome: ListOutcome)
    ensures SetFilter(s, apiBase, All, outcome).state.filters == ResetFilters(s).filters
    ensures SetFilter(s, apiBase, All, outcome).state.clientFilter == ResetFilters(s).clientFilter
  {
  }

  /** Every choice starts again from page 1. */
  lemma SetFilterFirstPage(s: StoreState, apiBase: string, choice: FilterChoice, outcome: ListOutcome)
    ensures SetFilter(s, apiBase, choice, outcome).state.filters.page == Some(1)
  {
  }

  /** Switching between buttons never carries a criterion over from the previous choice. */
  lemma SetFilterForgetsPrevious(s: StoreState, t: StoreState, apiBase: string, choice: FilterChoice, o1: ListOutcome, o2: ListOutcome)
    ensures SetFilter(s, apiBase, choice, o1).state.filters == SetFilter(t, apiBase, choice, o2).state.filters
  {
  }
}

=== FILE: query_builder.dfy ===
/**
 * The request key the store builds from its filter criteria: each non-empty
 * filter value becomes one query parameter, named by the fixed camelCase to
 * snake_case table of the API, in the order of the filter object.
 */
module QueryBuilder {
  import opened Wrappers
  import opened VehicleTypes
  import Decimal

  /** One `name=value` pair of the query string, before percent-encoding. */
  datatype Param = Param(name: string, value: string)

  /** The full list request `{apiBase}/vehicles?{query}`, the store's fetch key. */
  datatype FetchKey = ListKey(apiBase: string, query: seq<Param>)

  /** The API's parameter name for each filter key. */
  function ApiName(f: Field): string {
    match f
    case Page => "page"
    case ResultsPerPage => "results_per_page"
    case AdvertClassification => "advert_classification"
    case Make => "make"
    case Model => "model"
    case FuelType => "fuel_type"
    case Transmission => "transmission"
    case BodyType => "body_type"
    case MinPrice => "min_price"
    case MaxPrice => "max_price"
    case MinYear => "min_year"
    case MaxYear => "max_year"
  }

  /** Reverse lookup of the translation table. */
  function FieldOfApiName(name: string): (r: Option<Field>)
    ensures r.Some? ==> ApiName(r.value) == name
  {
    if name == "page" then Some(Page)
    else if name == "results_per_page" then Some(ResultsPerPage)
    else if name == "advert_classification" then Some(AdvertClassification)
    else if name == "make" then Some(Make)
    else if name == "model" then Some(Model)
    else if name == "fuel_type" then Some(FuelType)
    else if name == "transmission" then Some(Transmission)
    else if name == "body_type" then Some(BodyType)
    else if name == "min_price" then Some(MinPrice)
    else if name == "max_price" then Some(MaxPrice)
    else if name == "min_year" then Some(MinYear)
    else if name == "max_year" then Some(MaxYear)
    else None
  }

  /** The translation table is injective: the API name identifies the filter key. */
  lemma ApiNameRoundTrip(f: Field)
    ensures FieldOfApiName(ApiName(f)) == Some(f)
  {
  }

  lemma ApiNameInjective(f: Field, g: Field)
    requires ApiName(f) == ApiName(g)
    ensures f == g
  {
    ApiNameRoundTrip(f);
    ApiNameRoundTrip(g);
  }

  /** The value test of the builder: `undefined` and `""` are dropped, every number (0 included) is kept. */
  predicate Kept(v: Option<FilterValue>) {
    v.Some? && v.value != Text("")
  }

  /** `String(value)`. */
  function Render(v: FilterValue): string {
    match v
    case Num(n) => Decimal.IntToDecimal(n)
    case Text(s) => s
  }

  /** A kept filter value, tagged with the key it came from. */
  datatype KeyedValue = KeyedValue(field: Field, value: string)

  /** What a filter key contributes to the query, if anything. */
  function Entry(filters: VehicleFilters, f: Field): (e: Option<KeyedValue>)
    ensures e.Some? <==> Kept(Get(filters, f))
    ensures e.Some? ==> e.value.field == f && e.value.value == Render(Get(filters, f).value)
  {
    var v := Get(filters, f);
    if Kept(v) then Some(KeyedValue(f, Render(v.value))) else None
  }

  /**
   * `Object.entries(filters).forEach(...)` from key `f` onwards: each key with a
   * kept value contributes one entry, in the order of the filter object.
   */
  function QueryFrom(filters: VehicleFilters, f: Field): seq<KeyedValue>
    decreases 11 - Rank(f), 1
  {
    var e := Entry(filters, f);
    (if e.Some? then [e.value] else []) + QueryAfter(filters, f)
  }

  /** Every key from `f` on that holds a kept value contributes its entry. */
  lemma {:induction false} QueryFromComplete(filters: VehicleFilters, f: Field, g: Field)
    requires Rank(f) <= Rank(g) && Entry(filters, g).Some?
    ensures Entry(filters, g).value in QueryFrom(filters, f)
    decreases 11 - Rank(f)
  {
    if Rank(f) < Rank(g) {
      QueryFromComplete(filters, NextField(f).value, g);
    } else {
      RankInjective(f, g);
    }
  }

  /** Every element is the entry of its own key, a key from `f` on. */
  predicate EntriesFrom(filters: VehicleFilters, f: Field, kvs: seq<KeyedValue>) {
    forall i :: 0 <= i < |kvs| ==> Rank(f) <= Rank(kvs[i].field) && Entry(filters, kvs[i].field) == Some(kvs[i])
  }

  /** Keys appear in strictly increasing declaration order. */
  predicate FieldsIncreasing(kvs: seq<KeyedValue>) {
    forall i, j :: 0 <= i < j < |kvs| ==> Rank(kvs[i].field) < Rank(kvs[j].field)
  }

  /** The entries from `f` on: the entry of `f`, if any, then those after it. */
  lemma QueryFromUnfold(filters: VehicleFilters, f: Field)
    ensures QueryFrom(filters, f)
         == (if Entry(filters, f).Some? then [Entry(filters, f).value] else []) + QueryAfter(filters, f)
  {
  }

  /** The entries of the keys after `f`. */
  function QueryAfter(filters: VehicleFilters, f: Field): seq<KeyedValue>
    decreases 11 - Rank(f), 0
  {
    match NextField(f) case Some(g) => QueryFrom(filters, g) case None => []
  }

  /** Nothing but entries of keys from `f` on is emitted. */
  lemma {:induction false} QueryFromSound(filters: VehicleFilters, f: Field)
    ensures EntriesFrom(filters, f, QueryFrom(filters, f))
    decreases 11 - Rank(f)
  {
    if NextField(f).Some? {
      QueryFromSound(filters, NextField(f).value);
    }
    QueryFromUnfold(filters, f);
  }

  /** The entries from `f` on come in key order. */
  lemma {:induction false} QueryFromOrdered(filters: VehicleFilters, f: Field)
    ensures FieldsIncreasing(QueryFrom(filters, f))
    decreases 11 - Rank(f)
  {
    if NextField(f).Some? {
      QueryFromOrdered(filters, NextField(f).value);
      QueryFromSound(filters, NextField(f).value);
    }
    QueryFromUnfold(filters, f);
  }

  /** The kept values of the whole filter object, in declaration order. */
  function KeptValues(filters: VehicleFilters): seq<KeyedValue> {
    QueryFrom(filters, Page)
  }

  lemma KeptValuesSpec(filters: VehicleFilters)
    ensures forall f :: Entry(filters, f).Some? ==> Entry(filters, f).value in KeptValues(filters)
    ensures forall i :: 0 <= i < |KeptValues(filters)| ==> Entry(filters, KeptValues(filters)[i].field) == Some(KeptValues(filters)[i])
    ensures forall i, j :: 0 <= i < j < |KeptValues(filters)| ==> Rank(KeptValues(filters)[i].field) < Rank(KeptValues(filters)[j].field)
  {
    QueryFromSound(filters, Page);
    QueryFromOrdered(filters, Page);
    forall f | Entry(filters, f).Some?
      ensures Entry(filters, f).value in KeptValues(filters)
    {
      QueryFromComplete(filters, Page, f);
    }
  }

  /** A key holding a kept value is among the kept values. */
  lemma KeptValuesHasField(filters: VehicleFilters, f: Field)
    requires Kept(Get(filters, f))
    ensures Entry(filters, f).value in KeptValues(filters)
  {
    QueryFromComplete(filters, Page, f);
  }

  /** Renaming through the translation table. */
  function ToParams(kvs: seq<KeyedValue>): (q: seq<Param>)
    ensures |q| == |kvs|
    ensures forall i :: 0 <= i < |q| ==> q[i] == Param(ApiName(kvs[i].field), kvs[i].value)
  {
    seq(|kvs|, i requires 0 <= i < |kvs| => Param(ApiName(kvs[i].field), kvs[i].value))
  }

  /**
   * The query string of the filter object, as name/value pairs: each pair is a
   * key's API name with that key's kept value.
   */
  function BuildQuery(filters: VehicleFilters): (q: seq<Param>)
    ensures forall i :: 0 <= i < |q| ==>
              exists f :: q[i].name == ApiName(f) && Entry(filters, f) == Some(KeyedValue(f, q[i].value))
  {
    ParamsAreEntries(filters);
    ToParams(KeptValues(filters))
  }

  lemma ParamsAreEntries(filters: VehicleFilters)
    ensures forall i :: 0 <= i < |ToParams(KeptValues(filters))| ==>
              exists f :: ToParams(KeptValues(filters))[i].name == ApiName(f)
                          && Entry(filters, f) == Some(KeyedValue(f, ToParams(KeptValues(filters))[i].value))
  {
    var kvs := KeptValues(filters);
    QueryFromSound(filters, Page);
    forall i | 0 <= i < |ToParams(kvs)|
      ensures exists f :: ToParams(kvs)[i].name == ApiName(f) && Entry(filters, f) == Some(KeyedValue(f, ToParams(kvs)[i].value))
    {
      assert Entry(filters, kvs[i].field) == Some(kvs[i]);
    }
  }

  /** The key `fetchVehicles` compares against the last one it used. */
  function ListRequest(apiBase: string, filters: VehicleFilters): FetchKey {
    ListKey(apiBase, BuildQuery(filters))
  }

  /** A kept key's parameter, name and value, is in the query. */
  lemma ParamOfKeptField(filters: VehicleFilters, f: Field)
    requires Kept(Get(filters, f))
    ensures Param(ApiName(f), Render(Get(filters, f).value)) in BuildQuery(filters)
  {
    KeptValuesHasField(filters, f);
    var kvs := KeptValues(filters);
    var i :| 0 <= i < |kvs| && kvs[i] == Entry(filters, f).value;
    assert BuildQuery(filters)[i] == Param(ApiName(f), Render(Get(filters, f).value));
  }

  /** A parameter under a key's API name carries that key's kept value, rendered. */
  lemma BuildQueryParamValue(filters: VehicleFilters, f: Field, i: int)
    requires 0 <= i < |BuildQuery(filters)| && BuildQuery(filters)[i].name == ApiName(f)
    ensures Entry(filters, f) == Some(KeyedValue(f, BuildQuery(filters)[i].value))
  {
    var kvs := KeptValues(filters);
    QueryFromSound(filters, Page);
    QueryFromOrdered(filters, Page);
    assert BuildQuery(filters)[i] == Param(ApiName(kvs[i].field), kvs[i].value);
    ApiNameInjective(kvs[i].field, f);
  }

  /**
   * The query has a parameter named after a key exactly when that key holds a kept
   * value, and the parameter then carries that value's string form.
   */
  lemma BuildQueryCharacterization(filters: VehicleFilters, f: Field)
    ensures Kept(Get(filters, f)) <==> exists i :: 0 <= i < |BuildQuery(filters)| && BuildQuery(filters)[i].name == ApiName(f)
    ensures forall i :: 0 <= i < |BuildQuery(filters)| && BuildQuery(filters)[i].name == ApiName(f) ==>
              Entry(filters, f) == Some(KeyedValue(f, BuildQuery(filters)[i].value))
  {
    if Kept(Get(filters, f)) {
      ParamOfKeptField(filters, f);
    }
    forall i | 0 <= i < |BuildQuery(filters)| && BuildQuery(filters)[i].name == ApiName(f)
      ensures Entry(filters, f) == Some(KeyedValue(f, BuildQuery(filters)[i].value))
    {
      BuildQueryParamValue(filters, f, i);
    }
  }

  /** Position of an API parameter name in the translation table (12 when unknown). */
  function NameRank(name: string): nat {
    match FieldOfApiName(name)
    case Some(f) => Rank(f)
    case None => 12
  }

  /** Parameters come in filter-object order, so no API name appears twice. */
  lemma BuildQueryOrdered(filters: VehicleFilters)
    ensures forall i :: 0 <= i < |BuildQuery(filters)| ==> NameRank(BuildQuery(filters)[i].name) < 12
    ensures forall i, j :: 0 <= i < j < |BuildQuery(filters)| ==>
              NameRank(BuildQuery(filters)[i].name) < NameRank(BuildQuery(filters)[j].name)
  {
    var kvs := KeptValues(filters);
    QueryFromSound(filters, Page);
    QueryFromOrdered(filters, Page);
    var q := BuildQuery(filters);
    forall i | 0 <= i < |q|
      ensures NameRank(q[i].name) == Rank(kvs[i].field)
    {
      ApiNameRoundTrip(kvs[i].field);
    }
  }

  /** A page number of 0 is still sent (only `""` and `undefined` are dropped). */
  lemma ZeroPageKept(filters: VehicleFilters)
    requires filters.page == Some(0)
    ensures Param("page", "0") in BuildQuery(filters)
  {
    ParamOfKeptField(filters, Page);
  }

  /** An empty string is never sent. */
  lemma EmptyTextOmitted(filters: VehicleFilters, f: Field)
    requires Get(filters, f) == Some(Text(""))
    ensures forall i :: 0 <= i < |BuildQuery(filters)| ==> BuildQuery(filters)[i].name != ApiName(f)
  {
    BuildQueryCharacterization(filters, f);
  }

  /** Agreeing entries from `f` on give the same entries from `f` on. */
  lemma {:induction false} QueryFromSameEntries(a: VehicleFilters, b: VehicleFilters, f: Field)
    requires forall g :: Rank(f) <= Rank(g) ==> Entry(a, g) == Entry(b, g)
    ensures QueryFrom(a, f) == QueryFrom(b, f)
    decreases 11 - Rank(f)
  {
    QueryFromUnfold(a, f);
    QueryFromUnfold(b, f);
    if NextField(f).Some? {
      QueryFromSameEntries(a, b, NextField(f).value);
    }
  }

  /** Two filter objects send the same query exactly when every key contributes the same entry. */
  lemma SameQueryIffSameEntries(a: VehicleFilters, b: VehicleFilters)
    ensures BuildQuery(a) == BuildQuery(b) <==> forall f :: Entry(a, f) == Entry(b, f)
  {
    if forall f :: Entry(a, f) == Entry(b, f) {
      QueryFromSameEntries(a, b, Page);
    }
    if BuildQuery(a) == BuildQuery(b) {
      forall f
        ensures Entry(a, f) == Entry(b, f)
      {
        BuildQueryCharacterization(a, f);
        BuildQueryCharacterization(b, f);
        if Kept(Get(a, f)) {
          var q := BuildQuery(a);
          var i :| 0 <= i < |q| && q[i].name == ApiName(f);
        }
      }
    }
  }

  /**
   * Two list requests are the same request exactly when they go to the same API
   * base and every filter key contributes the same entry.
   */
  lemma SameRequestIffSameEntries(base1: string, f1: VehicleFilters, base2: string, f2: VehicleFilters)
    ensures ListRequest(base1, f1) == ListRequest(base2, f2)
        <==> base1 == base2 && forall f :: Entry(f1, f) == Entry(f2, f)
  {
    SameQueryIffSameEntries(f1, f2);
  }

  /** A parameter other than `page` sent for `a` is sent for any `b` that differs from `a` only in the page. */
  lemma OffPageParamCarried(a: VehicleFilters, b: VehicleFilters, p: Param)
    requires forall f :: f != Page ==> Get(a, f) == Get(b, f)
    requires p in BuildQuery(a) && p.name != ApiName(Page)
    ensures p in BuildQuery(b)
  {
    var q := BuildQuery(a);
    var i :| 0 <= i < |q| && q[i] == p;
    var f := KeptValues(a)[i].field;
    assert p.name == ApiName(f);
    BuildQueryParamValue(a, f, i);
    assert Get(b, f) == Get(a, f);
    ParamOfKeptField(b, f);
  }

  /** Changing only the page changes no other parameter of the query. */
  lemma BuildQueryOffPage(a: VehicleFilters, b: VehicleFilters)
    requires forall f :: f != Page ==> Get(a, f) == Get(b, f)
    ensures forall p: Param :: p.name != ApiName(Page) ==> (p in BuildQuery(a) <==> p in BuildQuery(b))
  {
    forall p: Param | p.name != ApiName(Page)
      ensures p in BuildQuery(a) <==> p in BuildQuery(b)
    {
      if p in BuildQuery(a) {
        OffPageParamCarried(a, b, p);
      }
      if p in BuildQuery(b) {
        OffPageParamCarried(b, a, p);
      }
    }
  }

  lemma RenderSmallNumbers()
    ensures Decimal.IntToDecimal(1) == "1" && Decimal.IntToDecimal(10) == "10"
  {
    assert Decimal.NatToDecimal(10) == Decimal.NatToDecimal(1) + [Decimal.DigitChar(0)];
  }

  /** A key without a kept value contributes nothing. */
  lemma QueryFromSkip(filters: VehicleFilters, f: Field, g: Field)
    requires Entry(filters, f).None? && NextField(f) == Some(g)
    ensures QueryFrom(filters, f) == QueryFrom(filters, g)
  {
    QueryFromUnfold(filters, f);
  }

  /** A key with a kept value contributes its entry ahead of the later keys. */
  lemma QueryFromTake(filters: VehicleFilters, f: Field, g: Field)
    requires Entry(filters, f).Some? && NextField(f) == Some(g)
    ensures QueryFrom(filters, f) == [Entry(filters, f).value] + QueryFrom(filters, g)
  {
    QueryFromUnfold(filters, f);
  }

  /** The last key contributes its entry, if any, and nothing follows it. */
  lemma QueryFromLast(filters: VehicleFilters)
    ensures QueryFrom(filters, MaxYear) == if Entry(filters, MaxYear).Some? then [Entry(filters, MaxYear).value] else []
  {
    QueryFromUnfold(filters, MaxYear);
  }

  /** No key from `f` on holds a kept value, so nothing from `f` on is sent. */
  lemma {:induction false} QueryFromEmpty(filters: VehicleFilters, f: Field)
    requires forall g :: Rank(f) <= Rank(g) ==> Entry(filters, g).None?
    ensures QueryFrom(filters, f) == []
    decreases 11 - Rank(f)
  {
    QueryFromUnfold(filters, f);
    if NextField(f).Some? {
      QueryFromEmpty(filters, NextField(f).value);
    }
  }

  /** Every default criterion after the paging keys is the empty string, which is not sent. */
  lemma DefaultCriteriaNotSent()
    ensures forall g :: Rank(AdvertClassification) <= Rank(g) ==> Entry(DefaultFilters, g).None?
  {
    forall g | Rank(AdvertClassification) <= Rank(g)
      ensures Entry(DefaultFilters, g).None?
    {
      assert g != Page && g != ResultsPerPage;
      assert Get(DefaultFilters, g) == Some(Text(""));
    }
  }

  lemma DefaultKeptValues()
    ensures KeptValues(DefaultFilters) == [KeyedValue(Page, "1"), KeyedValue(ResultsPerPage, "10")]
  {
    RenderSmallNumbers();
    DefaultCriteriaNotSent();
    QueryFromEmpty(DefaultFilters, AdvertClassification);
    QueryFromUnfold(DefaultFilters, ResultsPerPage);
    QueryFromUnfold(DefaultFilters, Page);
  }

  /** With every criterion at its default, only `page=1` and `results_per_page=10` are sent. */
  lemma DefaultQuery()
    ensures BuildQuery(DefaultFilters) == [Param(ApiName(Page), "1"), Param(ApiName(ResultsPerPage), "10")]
  {
    DefaultKeptValues();
    var q := BuildQuery(DefaultFilters);
    assert q[0] == Param(ApiName(Page), "1");
    assert q[1] == Param(ApiName(ResultsPerPage), "10");
  }

  /** The defaults with make Ford and minimum price 5000 chosen. */
  const FordFrom5000 := DefaultFilters.(make := Some("Ford"), minPrice := Some("5000"))

  /** The criteria after choosing make Ford and minimum price 5000 on the defaults. */
  lemma MakeAndMinPriceFilters()
    ensures Merge(DefaultFilters, NoFilters.(make := Some("Ford"), minPrice := Some("5000"))) == FordFrom5000
  {
    FiltersExtensional(Merge(DefaultFilters, NoFilters.(make := Some("Ford"), minPrice := Some("5000"))), FordFrom5000);
  }

  lemma FordFrom5000FromMinPrice()
    ensures QueryFrom(FordFrom5000, MinPrice) == [KeyedValue(MinPrice, "5000")]
  {
    QueryFromLast(FordFrom5000);
    QueryFromSkip(FordFrom5000, MinYear, MaxYear);
    QueryFromSkip(FordFrom5000, MaxPrice, MinYear);
    QueryFromTake(FordFrom5000, MinPrice, MaxPrice);
  }

  lemma FordFrom5000FromModel()
    ensures QueryFrom(FordFrom5000, Model) == [KeyedValue(MinPrice, "5000")]
  {
    FordFrom5000FromMinPrice();
    QueryFromSkip(FordFrom5000, BodyType, MinPrice);
    QueryFromSkip(FordFrom5000, Transmission, BodyType);
    QueryFromSkip(FordFrom5000, FuelType, Transmission);
    QueryFromSkip(FordFrom5000, Model, FuelType);
  }

  lemma FordFrom5000FromAdvertClassification()
    ensures QueryFrom(FordFrom5000, AdvertClassification) == [KeyedValue(Make, "Ford"), KeyedValue(MinPrice, "5000")]
  {
    FordFrom5000FromModel();
    QueryFromTake(FordFrom5000, Make, Model);
    QueryFromSkip(FordFrom5000, AdvertClassification, Make);
  }

  lemma MakeAndMinPriceKept()
    ensures KeptValues(FordFrom5000)
         == [KeyedValue(Page, "1"), KeyedValue(ResultsPerPage, "10"), KeyedValue(Make, "Ford"), KeyedValue(MinPrice, "5000")]
  {
    RenderSmallNumbers();
    FordFrom5000FromAdvertClassification();
    QueryFromUnfold(FordFrom5000, ResultsPerPage);
    QueryFromUnfold(FordFrom5000, Page);
  }

  /** Renaming a four-entry list, entry by entry. */
  lemma ToParamsOfFour(a: KeyedValue, b: KeyedValue, c: KeyedValue, d: KeyedValue)
    ensures ToParams([a, b, c, d])
         == [Param(ApiName(a.field), a.value), Param(ApiName(b.field), b.value),
             Param(ApiName(c.field), c.value), Param(ApiName(d.field), d.value)]
  {
  }

  lemma FordFrom5000Query()
    ensures BuildQuery(FordFrom5000)
         == [Param(ApiName(Page), "1"), Param(ApiName(ResultsPerPage), "10"),
             Param(ApiName(Make), "Ford"), Param(ApiName(MinPrice), "5000")]
  {
    MakeAndMinPriceKept();
    ToParamsOfFour(KeyedValue(Page, "1"), KeyedValue(ResultsPerPage, "10"), KeyedValue(Make, "Ford"), KeyedValue(MinPrice, "5000"));
  }

  /**
   * Setting a make and a minimum price on the defaults sends `make=Ford` and
   * `min_price=5000` after the paging parameters, and nothing for the empty keys.
   */
  lemma MakeAndMinPriceQuery()
    ensures BuildQuery(Merge(DefaultFilters, NoFilters.(make := Some("Ford"), minPrice := Some("5000"))))
         == [Param(ApiName(Page), "1"), Param(ApiName(ResultsPerPage), "10"),
             Param(ApiName(Make), "Ford"), Param(ApiName(MinPrice), "5000")]
  {
    MakeAndMinPriceFilters();
    FordFrom5000Query();
  }
}

=== FILE: string_order.dfy ===
/**
 * The order JavaScript's default `Array.prototype.sort` puts strings in
 * (lexicographic on character codes), and the "sorted, duplicate-free list"
 * that `[...new Set(xs)].sort()` produces.
 */
module StringOrder {

  /** Strict lexicographic order: a proper prefix comes first, otherwise the first differing character decides. */
  predicate Less(a: string, b: string)
    decreases |a|
  {
    if |a| == 0 then |b| > 0
    else if |b| == 0 then false
    else if a[0] == b[0] then Less(a[1..], b[1..])
    else a[0] < b[0]
  }

  lemma {:induction false} LessIrreflexive(a: string)
    ensures !Less(a, a)
    decreases |a|
  {
    if |a| > 0 {
      LessIrreflexive(a[1..]);
    }
  }

  lemma {:induction false} LessAsymmetric(a: string, b: string)
    requires Less(a, b)
    ensures !Less(b, a)
    decreases |a|
  {
    if |a| > 0 && |b| > 0 && a[0] == b[0] {
      LessAsymmetric(a[1..], b[1..]);
    }
  }

  lemma {:induction false} LessTransitive(a: string, b: string, c: string)
    requires Less(a, b) && Less(b, c)
    ensures Less(a, c)
    decreases |a|
  {
    if |a| > 0 && a[0] == b[0] && b[0] == c[0] {
      LessTransitive(a[1..], b[1..], c[1..]);
    }
  }

  lemma {:induction false} LessTotal(a: string, b: string)
    requires a != b
    ensures Less(a, b) || Less(b, a)
    decreases |a|
  {
    if |a| > 0 && |b| > 0 && a[0] == b[0] {
      assert a == [a[0]] + a[1..] && b == [b[0]] + b[1..];
      LessTotal(a[1..], b[1..]);
    }
  }

  /** Sorted with no repeated element. */
  predicate StrictlyIncreasing(xs: seq<string>) {
    forall i, j :: 0 <= i < j < |xs| ==> Less(xs[i], xs[j])
  }

  /** Adds `x` to a strictly increasing list, keeping it strictly increasing. */
  function Insert(x: string, xs: seq<string>): (r: seq<string>)
    requires StrictlyIncreasing(xs)
    ensures StrictlyIncreasing(r)
    ensures forall y :: y in r <==> y == x || y in xs
    decreases |xs|
  {
    if |xs| == 0 then [x]
    else if x == xs[0] then xs
    else if Less(x, xs[0]) then
      assert forall j :: 0 < j < |xs| ==> Less(x, xs[j]) by {
        forall j | 0 < j < |xs| {
          LessTransitive(x, xs[0], xs[j]);
        }
      }
      [x] + xs
    else
      LessTotal(x, xs[0]);
      var rest := Insert(x, xs[1..]);
      assert forall y :: y in rest ==> Less(xs[0], y);
      [xs[0]] + rest
  }

  /** `[...new Set(xs)].sort()`: the distinct elements of `xs` in increasing order. */
  function SortedDistinct(xs: seq<string>): (r: seq<string>)
    ensures StrictlyIncreasing(r)
    ensures forall y :: y in r <==> y in xs
    decreases |xs|
  {
    if |xs| == 0 then [] else Insert(xs[0], SortedDistinct(xs[1..]))
  }

  /**
   * A strictly increasing list is determined by its elements, so SortedDistinct is
   * the only list that is sorted, duplicate-free and holds exactly the given values.
   */
  lemma {:induction false} StrictlyIncreasingUnique(a: seq<string>, b: seq<string>)
    requires StrictlyIncreasing(a) && StrictlyIncreasing(b)
    requires forall y :: y in a <==> y in b
    ensures a == b
    decreases |a|
  {
    if |b| > 0 {
      assert b[0] in a;
    }
    if |a| > 0 {
      assert a[0] in b;
      assert b[0] in a;
      if a[0] != b[0] {
        var k :| 0 <= k < |b| && b[k] == a[0];
        var m :| 0 <= m < |a| && a[m] == b[0];
        assert k > 0 && m > 0;
        LessAsymmetric(b[0], a[0]);
        assert false;
      }
      forall y
        ensures y in a[1..] <==> y in b[1..]
      {
        LessIrreflexive(y);
        if y in a[1..] {
          var i :| 1 <= i < |a| && a[i] == y;
          assert y in b;
          var j :| 0 <= j < |b| && b[j] == y;
          assert j != 0;
          assert b[1..][j - 1] == y;
        }
        if y in b[1..] {
          var j :| 1 <= j < |b| && b[j] == y;
          assert y in a;
          var i :| 0 <= i < |a| && a[i] == y;
          assert i != 0;
          assert a[1..][i - 1] == y;
        }
      }
      StrictlyIncreasingUnique(a[1..], b[1..]);
      assert a == [a[0]] + a[1..] && b == [b[0]] + b[1..];
    }
  }

  lemma SortedDistinctCanonical(xs: seq<string>, r: seq<string>)
    requires StrictlyIncreasing(r)
    requires forall y :: y in r <==> y in xs
    ensures r == SortedDistinct(xs)
  {
    StrictlyIncreasingUnique(r, SortedDistinct(xs));
  }
}

=== FILE: vehicle_card.dfy ===
/**
 * The listing card's image carousel: which image is shown, whether it has
 * loaded or failed, which way the last slide went, and whether the user has
 * clicked a carousel button. Navigation wraps around at both ends.
 */
module VehicleCard {
  import opened Wrappers
  import opened VehicleTypes

  datatype SlideDirection = Forward | Backward

  datatype Carousel = Carousel(
    currentImageIndex: int,
    imageError: bool,
    imageLoaded: bool,
    slideDirection: SlideDirection,
    hasInteracted: bool)

  /** A card starts on the first image, nothing loaded yet, untouched. */
  const InitialCarousel: Carousel := Carousel(0, false, false, Forward, false)

  /** `media_urls?.length || 0`. */
  function TotalImages(v: Vehicle): (n: nat)
    ensures n == |v.media_urls|
    ensures n == 0 <==> forall m :: m !in v.media_urls
  {
    assert |v.media_urls| > 0 ==> v.media_urls[0] in v.media_urls;
    |v.media_urls|
  }

  function HasMultipleImages(v: Vehicle): (b: bool)
    ensures b <==> |v.media_urls| > 1
  {
    TotalImages(v) > 1
  }

  /** The index is one of the listing's images. */
  predicate InRange(c: Carousel, v: Vehicle) {
    0 <= c.currentImageIndex < TotalImages(v)
  }

  /**
   * The medium URL of the current image; `null` when there are no images, the
   * index is past either end, or the URL is empty.
   */
  function CurrentImage(c: Carousel, v: Vehicle): (r: Option<string>)
    ensures r.Some? <==> InRange(c, v) && v.media_urls[c.currentImageIndex].medium != ""
    ensures r.Some? ==> r.value == v.media_urls[c.currentImageIndex].medium
    ensures r.Some? ==> r.value != "" && exists m :: m in v.media_urls && m.medium == r.value
  {
    if |v.media_urls| == 0 then None
    else if 0 <= c.currentImageIndex < |v.media_urls| && v.media_urls[c.currentImageIndex].medium != "" then
      Some(v.media_urls[c.currentImageIndex].medium)
    else None
  }

  /** `handleImageError`. */
  function HandleImageError(c: Carousel): (r: Carousel)
    ensures r.imageError && !r.imageLoaded
    ensures r.(imageError := c.imageError, imageLoaded := c.imageLoaded) == c
  {
    c.(imageError := true, imageLoaded := false)
  }

  /** `handleImageLoad`. */
  function HandleImageLoad(c: Carousel): (r: Carousel)
    ensures r.imageLoaded && !r.imageError
    ensures r.(imageError := c.imageError, imageLoaded := c.imageLoaded) == c
  {
    c.(imageLoaded := true, imageError := false)
  }

  /** The flags and direction every slide sets, before the index moves. */
  function Slide(c: Carousel, direction: SlideDirection, index: int): (r: Carousel)
    ensures r.hasInteracted && !r.imageLoaded && !r.imageError && r.slideDirection == direction
    ensures r.currentImageIndex == index
  {
    Carousel(index, false, false, direction, true)
  }

  /** `nextImage`: one forward, wrapping from the last image (or beyond) to the first. */
  function NextImage(c: Carousel, v: Vehicle): (r: Carousel)
    ensures r.hasInteracted && !r.imageLoaded && !r.imageError && r.slideDirection == Forward
  {
    Slide(c, Forward, if c.currentImageIndex < TotalImages(v) - 1 then c.currentImageIndex + 1 else 0)
  }

  /** `previousImage`: one back, wrapping from the first image (or before) to the last. */
  function PreviousImage(c: Carousel, v: Vehicle): (r: Carousel)
    ensures r.hasInteracted && !r.imageLoaded && !r.imageError && r.slideDirection == Backward
  {
    Slide(c, Backward, if c.currentImageIndex > 0 then c.currentImageIndex - 1 else TotalImages(v) - 1)
  }

  /** Moving forward within range is a step modulo the number of images. */
  lemma NextImageStep(c: Carousel, v: Vehicle)
    requires InRange(c, v)
    ensures NextImage(c, v).currentImageIndex == (c.currentImageIndex + 1) % TotalImages(v)
  {
  }

  /** Moving back within range is a step back modulo the number of images. */
  lemma PreviousImageStep(c: Carousel, v: Vehicle)
    requires InRange(c, v)
    ensures PreviousImage(c, v).currentImageIndex == (c.currentImageIndex - 1) % TotalImages(v)
  {
  }

  /** With at least one image both moves keep the index on an image. */
  lemma NavigationKeepsRange(c: Carousel, v: Vehicle)
    requires InRange(c, v)
    ensures InRange(NextImage(c, v), v) && InRange(PreviousImage(c, v), v)
  {
  }

  /** Moving forward from any index, even a stale one, lands on an image when there is one. */
  lemma NextImageRecovers(c: Carousel, v: Vehicle)
    requires TotalImages(v) >= 1 && c.currentImageIndex >= 0
    ensures InRange(NextImage(c, v), v)
  {
  }

  /** Without images, moving back leaves the index at -1, where no image is shown. */
  lemma PreviousImageWithoutImages(c: Carousel, v: Vehicle)
    requires TotalImages(v) == 0 && c.currentImageIndex <= 0
    ensures PreviousImage(c, v).currentImageIndex == -1
    ensures CurrentImage(PreviousImage(c, v), v).None?
  {
  }

  /** Back undoes forward and forward undoes back, within range. */
  lemma NavigationInverse(c: Carousel, v: Vehicle)
    requires InRange(c, v)
    ensures PreviousImage(NextImage(c, v), v).currentImageIndex == c.currentImageIndex
    ensures NextImage(PreviousImage(c, v), v).currentImageIndex == c.currentImageIndex
  {
  }

  /** `k` forward moves in a row. */
  function NextImageTimes(c: Carousel, v: Vehicle, k: nat): (r: Carousel)
    ensures k > 0 ==> r.hasInteracted && r.slideDirection == Forward
    ensures k == 0 ==> r == c
  {
    if k == 0 then c else NextImage(NextImageTimes(c, v, k - 1), v)
  }

  /** `k` forward moves within range advance the index by `k` modulo the number of images. */
  lemma {:induction false} NextImageTimesModulo(c: Carousel, v: Vehicle, k: nat)
    requires InRange(c, v)
    ensures NextImageTimes(c, v, k).currentImageIndex == (c.currentImageIndex + k) % TotalImages(v)
  {
    if k > 0 {
      NextImageTimesModulo(c, v, k - 1);
      var before := NextImageTimes(c, v, k - 1);
      var n := TotalImages(v);
      assert InRange(before, v);
      NextImageStep(before, v);
      ModuloStep(c.currentImageIndex + k - 1, n);
    }
  }

  lemma MulMono(d: int, n: int)
    requires n > 0 && d >= 1
    ensures d * n >= n
  {
  }

  lemma ModUnique(a: int, n: int, q: int, r: int)
    requires n > 0 && 0 <= r < n && a == q * n + r
    ensures a % n == r
  {
    var q', r' := a / n, a % n;
    assert a == q' * n + r';
    assert (q - q') * n == r' - r;
    if q - q' >= 1 {
      MulMono(q - q', n);
    } else if q' - q >= 1 {
      MulMono(q' - q, n);
    }
  }

  lemma ModuloStep(a: int, n: int)
    requires n > 0
    ensures (a % n + 1) % n == (a + 1) % n
  {
    var q, r := a / n, a % n;
    assert a == q * n + r;
    if r + 1 < n {
      ModUnique(a + 1, n, q, r + 1);
      ModUnique(r + 1, n, 0, r + 1);
    } else {
      ModUnique(a + 1, n, q + 1, 0);
      ModUnique(r + 1, n, 1, 0);
    }
  }

  /** Going all the way round the images returns to the image you started on. */
  lemma FullCircle(c: Carousel, v: Vehicle)
    requires InRange(c, v)
    ensures NextImageTimes(c, v, TotalImages(v)).currentImageIndex == c.currentImageIndex
  {
    NextImageTimesModulo(c, v, TotalImages(v));
    ModUnique(c.currentImageIndex + TotalImages(v), TotalImages(v), 1, c.currentImageIndex);
  }

  /**
   * The image shown follows the navigation: going round all the images, or
   * forward then back, shows the same image again (or again none).
   */
  lemma CurrentImageFollowsNavigation(c: Carousel, v: Vehicle)
    requires InRange(c, v)
    ensures CurrentImage(NextImageTimes(c, v, TotalImages(v)), v) == CurrentImage(c, v)
    ensures CurrentImage(PreviousImage(NextImage(c, v), v), v) == CurrentImage(c, v)
    ensures CurrentImage(NextImage(PreviousImage(c, v), v), v) == CurrentImage(c, v)
  {
    FullCircle(c, v);
    NavigationInverse(c, v);
  }

  /** The buttons move the index exactly when the listing has more than one image. */
  lemma NavigationMovesIffMultiple(c: Carousel, v: Vehicle)
    requires InRange(c, v)
    ensures NextImage(c, v).currentImageIndex != c.currentImageIndex <==> HasMultipleImages(v)
    ensures PreviousImage(c, v).currentImageIndex != c.currentImageIndex <==> HasMultipleImages(v)
  {
  }

  /** With a single image neither button moves off it. */
  lemma SingleImageStays(c: Carousel, v: Vehicle)
    requires TotalImages(v) == 1 && c.currentImageIndex == 0
    ensures NextImage(c, v).currentImageIndex == 0 && PreviousImage(c, v).currentImageIndex == 0
    ensures !HasMultipleImages(v)
  {
  }

  /** The image is never shown as both loaded and failed. */
  predicate FlagsConsistent(c: Carousel) {
    !(c.imageLoaded && c.imageError)
  }

  /** Every carousel transition keeps the load and error flags exclusive. */
  lemma TransitionsKeepFlagsConsistent(c: Carousel, v: Vehicle)
    ensures FlagsConsistent(NextImage(c, v)) && FlagsConsistent(PreviousImage(c, v))
    ensures FlagsConsistent(HandleImageLoad(c)) && FlagsConsistent(HandleImageError(c))
    ensures FlagsConsistent(InitialCarousel)
  {
  }

  /** ASCII `toLowerCase` of one character. */
  function LowerChar(ch: char): (r: char)
    ensures 'A' <= ch <= 'Z' ==> r as int == ch as int + 32
    ensures !('A' <= ch <= 'Z') ==> r == ch
  {
    if 'A' <= ch <= 'Z' then (ch as int + 32) as char else ch
  }

  /** ASCII `toLowerCase` of a string, character by character. */
  function Lower(s: string): (r: string)
    ensures |r| == |s|
    ensures forall i :: 0 <= i < |s| ==> r[i] == LowerChar(s[i])
  {
    if |s| == 0 then [] else [LowerChar(s[0])] + Lower(s[1..])
  }

  const NewClass: string := "classification-new"
  const UsedClass: string := "classification-used"

  /** The badge style: the new style when the classification reads "new" in any letter case. */
  function ClassificationClass(v: Vehicle): (r: string)
    ensures r == NewClass || r == UsedClass
  {
    if Lower(v.advert_classification) == "new" then NewClass else UsedClass
  }

  /** Exactly the spellings n/N, e/E, w/W of "new" get the new style. */
  lemma ClassificationClassNew(v: Vehicle)
    ensures ClassificationClass(v) == NewClass <==>
              |v.advert_classification| == 3
              && (v.advert_classification[0] == 'n' || v.advert_classification[0] == 'N')
              && (v.advert_classification[1] == 'e' || v.advert_classification[1] == 'E')
              && (v.advert_classification[2] == 'w' || v.advert_classification[2] == 'W')
  {
    var s := v.advert_classification;
    if |s| == 3 {
      assert Lower(s) == "new" <==> Lower(s)[0] == 'n' && Lower(s)[1] == 'e' && Lower(s)[2] == 'w';
    } else {
      assert |Lower(s)| != 3;
    }
  }
}

=== FILE: vehicle_list.dfy ===
/**
 * The list view's two derived flags: whether there is anything to show, and
 * whether to show the "no results" message instead.
 */
module VehicleList {
  import opened VehicleTypes
  import opened VehicleStore

  /** `hasVehicles`. */
  function HasVehiclesShown(vehicles: seq<Vehicle>): (b: bool)
    ensures b <==> exists v :: v in vehicles
  {
    assert |vehicles| > 0 ==> vehicles[0] in vehicles;
    |vehicles| > 0
  }

  /** `showNoResults`: only once the first load has finished, and only for an empty list. */
  function ShowNoResults(vehicles: seq<Vehicle>, initialLoadComplete: bool): (b: bool)
    ensures b <==> initialLoadComplete && forall v :: v !in vehicles
  {
    initialLoadComplete && !HasVehiclesShown(vehicles)
  }

  /** The list and the message are never shown together. */
  lemma ListOrMessage(vehicles: seq<Vehicle>, initialLoadComplete: bool)
    ensures !(HasVehiclesShown(vehicles) && ShowNoResults(vehicles, initialLoadComplete))
    ensures initialLoadComplete ==> HasVehiclesShown(vehicles) || ShowNoResults(vehicles, initialLoadComplete)
  {
  }

  /**
   * The view's flag agrees with the store's `hasVehicles` getter on the list as
   * loaded; with the offers filter on, listings can be loaded and none shown.
   */
  lemma ViewAgreesWithStore(s: StoreState)
    ensures HasVehiclesShown(FilteredVehicles(s)) ==> HasVehicles(s)
    ensures s.clientFilter != OffersFilter ==> HasVehiclesShown(FilteredVehicles(s)) == HasVehicles(s)
  {
    var shown := FilteredVehicles(s);
    if HasVehiclesShown(shown) {
      var v :| v in shown;
      assert multiset(shown)[v] > 0;
    }
  }

  /** Before the first load finishes the message is never shown, so the page shows its skeleton. */
  lemma NoMessageBeforeFirstLoad(vehicles: seq<Vehicle>)
    ensures !ShowNoResults(vehicles, false)
    ensures !ShowNoResults(vehicles, InitialState.initialLoadComplete)
  {
  }

  /**
   * After any list fetch, the view shows either listings or the message: an empty
   * page (or an error before anything loaded) gives the message.
   */
  lemma FetchDecidesView(s: StoreState, apiBase: string, outcome: ListOutcome)
    ensures var t := FetchVehicles(s, apiBase, outcome).state;
            HasVehiclesShown(FilteredVehicles(t)) != ShowNoResults(FilteredVehicles(t), t.initialLoadComplete)
  {
  }

  /** A successful fetch of an empty page shows the message. */
  lemma EmptyPageShowsMessage(s: StoreState, apiBase: string, meta: ResponseMetadata)
    requires !IsRepeat(s, apiBase)
    ensures var t := FetchVehicles(s, apiBase, ListSuccess([], meta)).state;
            ShowNoResults(t.vehicles, t.initialLoadComplete)
  {
  }
}

=== FILE: vehicle_store.dfy ===
/**
 * The vehicle store: one state record, its derived getters, and each action as a
 * pure transition. The network is a parameter: every action that awaits a
 * response takes the response (or the thrown value) as an argument and reports
 * the request it issued, so nothing here performs I/O.
 */
module VehicleStore {
  import opened Wrappers
  import opened VehicleTypes
  import opened QueryBuilder
  import Decimal
  import StringOrder

  datatype StoreState = StoreState(
    vehicles: seq<Vehicle>,
    currentVehicle: Option<Vehicle>,
    metadata: Option<ResponseMetadata>,
    filters: VehicleFilters,
    loading: bool,
    initialLoadComplete: bool,
    error: Option<string>,
    availableMakes: seq<string>,
    availableModels: seq<string>,
    clientFilter: string,
    /** `None` is the initial empty key; a built key always names `/vehicles`. */
    lastFetchKey: Option<FetchKey>)

  /** The state a fresh store starts in: nothing loaded yet, but shown as loading. */
  const InitialState: StoreState :=
    StoreState([], None, None, DefaultFilters, true, false, None, [], [], "", None)

  /** The one client-side filter the store knows. */
  const OffersFilter: string := "offers"

  /** What an awaited request can throw: an `Error` carries a message, anything else does not. */
  datatype Thrown = ErrorInstance(message: string) | NonErrorValue

  /** The response to a list request. */
  datatype ListOutcome = ListSuccess(data: seq<Vehicle>, meta: ResponseMetadata) | ListFailure(thrown: Thrown)

  /** The response to a single-vehicle request. */
  datatype VehicleOutcome = VehicleSuccess(vehicle: Vehicle) | VehicleFailure(thrown: Thrown)

  /** `err instanceof Error ? err.message : fallback`. */
  function ErrorMessage(thrown: Thrown, fallback: string): (m: string)
    ensures thrown.ErrorInstance? ==> m == thrown.message
    ensures thrown.NonErrorValue? ==> m == fallback
  {
    match thrown
    case ErrorInstance(message) => message
    case NonErrorValue => fallback
  }

  // ---------------------------------------------------------------------------
  // Getters
  // ---------------------------------------------------------------------------

  /** `b` contains the elements of `a` in the same order, possibly with others in between. */
  predicate SubsequenceOf(a: seq<Vehicle>, b: seq<Vehicle>)
    decreases |b|
  {
    if |a| == 0 then true
    else if |b| == 0 then false
    else if a[0] == b[0] then SubsequenceOf(a[1..], b[1..])
    else SubsequenceOf(a, b[1..])
  }

  /** `vehicles.filter(v => v.has_offer)`: exactly the listings with an offer, each as often as in the input. */
  function OnlyOffers(vs: seq<Vehicle>): (r: seq<Vehicle>)
    ensures |r| <= |vs|
    ensures forall i :: 0 <= i < |r| ==> r[i].has_offer
    ensures forall v :: multiset(r)[v] == if v.has_offer then multiset(vs)[v] else 0
  {
    if |vs| == 0 then []
    else
      assert vs == [vs[0]] + vs[1..];
      (if vs[0].has_offer then [vs[0]] else []) + OnlyOffers(vs[1..])
  }

  /** The offers filter keeps the listings in their original order. */
  lemma {:induction false} OnlyOffersOrdered(vs: seq<Vehicle>)
    ensures SubsequenceOf(OnlyOffers(vs), vs)
  {
    if |vs| > 0 {
      OnlyOffersOrdered(vs[1..]);
      var rest := OnlyOffers(vs[1..]);
      if vs[0].has_offer {
        assert OnlyOffers(vs)[1..] == rest;
      } else {
        assert OnlyOffers(vs) == rest;
        if |rest| > 0 {
          assert rest[0] != vs[0];
        }
      }
    }
  }

  /** The list the page shows: only listings with an offer while the offers filter is on. */
  function FilteredVehicles(s: StoreState): (r: seq<Vehicle>)
    ensures s.clientFilter != OffersFilter ==> r == s.vehicles
    ensures s.clientFilter == OffersFilter ==>
              (forall i :: 0 <= i < |r| ==> r[i].has_offer)
              && (forall v :: multiset(r)[v] == if v.has_offer then multiset(s.vehicles)[v] else 0)
  {
    if s.clientFilter == OffersFilter then OnlyOffers(s.vehicles) else s.vehicles
  }

  /** With the offers filter on, the shown list is the order-preserving selection of offers. */
  lemma FilteredVehiclesOrdered(s: StoreState)
    ensures SubsequenceOf(FilteredVehicles(s), s.vehicles)
  {
    if s.clientFilter == OffersFilter {
      OnlyOffersOrdered(s.vehicles);
    } else {
      SubsequenceOfSelf(s.vehicles);
    }
  }

  lemma {:induction false} SubsequenceOfSelf(vs: seq<Vehicle>)
    ensures SubsequenceOf(vs, vs)
  {
    if |vs| > 0 {
      SubsequenceOfSelf(vs[1..]);
    }
  }

  /** `vehicles.length > 0`: some listing is loaded. */
  function HasVehicles(s: StoreState): (b: bool)
    ensures b <==> exists v :: v in s.vehicles
  {
    assert |s.vehicles| > 0 ==> s.vehicles[0] in s.vehicles;
    |s.vehicles| > 0
  }

  /** Number of pages for the pager: none while filtering client-side, else `last_page || 0`. */
  function TotalPages(s: StoreState): (n: int)
    ensures s.clientFilter == OffersFilter ==> n == 0
    ensures s.clientFilter != OffersFilter && s.metadata.None? ==> n == 0
    ensures s.clientFilter != OffersFilter && s.metadata.Some? ==> n == s.metadata.value.last_page
  {
    if s.clientFilter == OffersFilter then 0
    else if s.metadata.Some? then OrElse(Some(s.metadata.value.last_page), 0)
    else 0
  }

  /** `current_page || 1`: a missing or zero page reads as page 1, so it is never 0. */
  function CurrentPage(s: StoreState): (n: int)
    ensures n != 0
    ensures s.metadata.Some? && s.metadata.value.current_page != 0 ==> n == s.metadata.value.current_page
    ensures s.metadata.None? || s.metadata.value.current_page == 0 ==> n == 1
  {
    if s.metadata.Some? then OrElse(Some(s.metadata.value.current_page), 1) else 1
  }

  /** Number of matches: the offers on this page while filtering client-side, else `total || 0`. */
  function TotalVehicles(s: StoreState): (n: int)
    ensures s.clientFilter == OffersFilter ==> n == |FilteredVehicles(s)|
    ensures s.clientFilter != OffersFilter && s.metadata.None? ==> n == 0
    ensures s.clientFilter != OffersFilter && s.metadata.Some? ==> n == s.metadata.value.total
  {
    if s.clientFilter == OffersFilter then |OnlyOffers(s.vehicles)|
    else if s.metadata.Some? then OrElse(Some(s.metadata.value.total), 0)
    else 0
  }

  /** The optional counters below are read with `?.` and `|| 0`. */
  function NewVehiclesCount(s: StoreState): (n: int)
    ensures s.metadata.Some? && s.metadata.value.total_new_vehicles.Some? ==> n == s.metadata.value.total_new_vehicles.value
    ensures s.metadata.None? || s.metadata.value.total_new_vehicles.None? ==> n == 0
  {
    if s.metadata.Some? then OrElse(s.metadata.value.total_new_vehicles, 0) else 0
  }

  function UsedVehiclesCount(s: StoreState): (n: int)
    ensures s.metadata.Some? && s.metadata.value.total_used_vehicles.Some? ==> n == s.metadata.value.total_used_vehicles.value
    ensures s.metadata.None? || s.metadata.value.total_used_vehicles.None? ==> n == 0
  {
    if s.metadata.Some? then OrElse(s.metadata.value.total_used_vehicles, 0) else 0
  }

  function OfferVehiclesCount(s: StoreState): (n: int)
    ensures s.metadata.Some? && s.metadata.value.offer_vehicles.Some? ==> n == s.metadata.value.offer_vehicles.value
    ensures s.metadata.None? || s.metadata.value.offer_vehicles.None? ==> n == 0
  {
    if s.metadata.Some? then OrElse(s.metadata.value.offer_vehicles, 0) else 0
  }

  // ---------------------------------------------------------------------------
  // Fetching the list
  // ---------------------------------------------------------------------------

  const FetchVehiclesFallback: string := "Failed to fetch vehicles"

  /** A list action's result: the state once it has settled, and the request it sent, if any. */
  datatype Fetched = Fetched(state: StoreState, request: Option<FetchKey>)

  /** The fields no list fetch writes. */
  predicate KeepsSelection(s: StoreState, t: StoreState) {
    t.filters == s.filters && t.clientFilter == s.clientFilter && t.currentVehicle == s.currentVehicle
    && t.availableMakes == s.availableMakes && t.availableModels == s.availableModels
  }

  /** The request would repeat the last successful one while its listings are still shown. */
  predicate IsRepeat(s: StoreState, apiBase: string) {
    s.lastFetchKey == Some(ListRequest(apiBase, s.filters)) && |s.vehicles| > 0
  }

  /**
   * A fetch is skipped exactly when listings are shown and the last stored request
   * went to the same API base with, key by key, the same sent entries.
   */
  lemma IsRepeatIffSameEntries(s: StoreState, apiBase: string, lastBase: string, lastFilters: VehicleFilters)
    requires s.lastFetchKey == Some(ListRequest(lastBase, lastFilters))
    ensures IsRepeat(s, apiBase)
        <==> |s.vehicles| > 0 && lastBase == apiBase && forall f :: Entry(lastFilters, f) == Entry(s.filters, f)
  {
    SameRequestIffSameEntries(lastBase, lastFilters, apiBase, s.filters);
  }

  /**
   * `fetchVehicles`: skip a repeated request, otherwise request the current
   * criteria and store the page or the error. The `finally` block runs on every
   * path, the early return included.
   */
  function FetchVehicles(s: StoreState, apiBase: string, outcome: ListOutcome): (r: Fetched)
    ensures !r.state.loading && r.state.initialLoadComplete
    ensures KeepsSelection(s, r.state)
    ensures r.request.None? <==> IsRepeat(s, apiBase)
    ensures r.request.None? ==> r.state == s.(loading := false, initialLoadComplete := true)
    ensures r.request.Some? ==> r.request.value == ListRequest(apiBase, s.filters)
    ensures r.request.Some? && outcome.ListSuccess? ==>
              r.state.vehicles == outcome.data && r.state.metadata == Some(outcome.meta)
              && r.state.lastFetchKey == r.request && r.state.error.None?
    ensures r.request.Some? && outcome.ListFailure? ==>
              r.state.vehicles == s.vehicles && r.state.metadata == s.metadata
              && r.state.lastFetchKey == s.lastFetchKey
              && r.state.error == Some(ErrorMessage(outcome.thrown, FetchVehiclesFallback))
  {
    var key := ListRequest(apiBase, s.filters);
    if s.lastFetchKey == Some(key) && |s.vehicles| > 0 then
      Fetched(s.(loading := false, initialLoadComplete := true), None)
    else
      var started := s.(loading := true, error := None);
      var settled := match outcome
        case ListSuccess(data, meta) => started.(vehicles := data, metadata := Some(meta), lastFetchKey := Some(key))
        case ListFailure(thrown) => started.(error := Some(ErrorMessage(thrown, FetchVehiclesFallback)));
      Fetched(settled.(loading := false, initialLoadComplete := true), Some(key))
  }

  /**
   * Once a fetch has stored a non-empty page, fetching again with unchanged
   * criteria sends nothing and leaves the store exactly as it is.
   */
  lemma FetchVehiclesSettles(s: StoreState, apiBase: string, first: ListOutcome, second: ListOutcome)
    requires first.ListSuccess? && |first.data| > 0
    ensures FetchVehicles(FetchVehicles(s, apiBase, first).state, apiBase, second).request.None?
    ensures FetchVehicles(FetchVehicles(s, apiBase, first).state, apiBase, second).state
         == FetchVehicles(s, apiBase, first).state
  {
    var once := FetchVehicles(s, apiBase, first);
    if once.request.None? {
      assert once.state.vehicles == s.vehicles && once.state.lastFetchKey == s.lastFetchKey;
    }
    assert IsRepeat(once.state, apiBase);
  }

  /** A failed fetch never clears the listings already shown, so the page stays usable. */
  lemma FetchFailureKeepsPage(s: StoreState, apiBase: string, thrown: Thrown)
    ensures FetchVehicles(s, apiBase, ListFailure(thrown)).state.vehicles == s.vehicles
    ensures FetchVehicles(s, apiBase, ListFailure(thrown)).state.metadata == s.metadata
    ensures FetchVehicles(s, apiBase, ListFailure(thrown)).state.error.Some?
            || FetchVehicles(s, apiBase, ListFailure(thrown)).request.None?
  {
  }

  // ---------------------------------------------------------------------------
  // Fetching one vehicle
  // ---------------------------------------------------------------------------

  const FetchVehicleFallback: string := "Failed to fetch vehicle"

  /** A single-vehicle action's result: the settled state, what it returned, and the URL it requested. */
  datatype VehicleFetched = VehicleFetched(state: StoreState, returned: Option<Vehicle>, request: string)

  /** `{apiBase}/vehicles/{id}` for an integer id. */
  function VehicleByIdUrl(apiBase: string, id: int): (u: string)
    ensures |u| > |apiBase| + 10
    ensures u[..|apiBase| + 10] == apiBase + "/vehicles/"
    ensures u[|apiBase| + 10] == '-' || Decimal.IsDigit(u[|apiBase| + 10])
    ensures var tail := u[|apiBase| + 10..];
            ((|tail| > 0 && tail[0] == '-' && Decimal.AllDigits(tail[1..])) || Decimal.AllDigits(tail))
            && Decimal.DecimalValue(tail) == id
  {
    var digits := Decimal.IntToDecimal(id);
    assert (apiBase + "/vehicles/" + digits)[|apiBase| + 10] == digits[0];
    assert (apiBase + "/vehicles/" + digits)[|apiBase| + 10..] == digits;
    Decimal.IntToDecimalRoundTrip(id);
    apiBase + "/vehicles/" + digits
  }

  /** `{apiBase}/vehicles/vrm/{vrm}`. */
  function VehicleByVrmUrl(apiBase: string, vrm: string): (u: string)
    ensures |u| > |apiBase| + 10 && u[..|apiBase| + 10] == apiBase + "/vehicles/"
    ensures u[|apiBase| + 10] == 'v'
    ensures |u| == |apiBase| + 14 + |vrm| && u[|apiBase| + 14..] == vrm
  {
    assert (apiBase + "/vehicles/vrm/" + vrm)[|apiBase| + 14..] == vrm;
    apiBase + "/vehicles/vrm/" + vrm
  }

  /** Different ids are different URLs. */
  lemma VehicleByIdUrlInjective(apiBase: string, a: int, b: int)
    requires VehicleByIdUrl(apiBase, a) == VehicleByIdUrl(apiBase, b)
    ensures a == b
  {
    var prefix := apiBase + "/vehicles/";
    assert VehicleByIdUrl(apiBase, a)[|prefix|..] == Decimal.IntToDecimal(a);
    assert VehicleByIdUrl(apiBase, b)[|prefix|..] == Decimal.IntToDecimal(b);
    Decimal.IntToDecimalInjective(a, b);
  }

  /** A lookup by id and a lookup by registration never request the same URL. */
  lemma VehicleUrlsDisjoint(apiBase: string, id: int, vrm: string)
    ensures VehicleByIdUrl(apiBase, id) != VehicleByVrmUrl(apiBase, vrm)
  {
  }

  /** The shared body of both single-vehicle actions once the URL is known. */
  function LoadVehicle(s: StoreState, url: string, outcome: VehicleOutcome): (r: VehicleFetched)
    ensures r.request == url && !r.state.loading
    ensures r.state.vehicles == s.vehicles && r.state.metadata == s.metadata
            && r.state.initialLoadComplete == s.initialLoadComplete && r.state.filters == s.filters
            && r.state.clientFilter == s.clientFilter && r.state.lastFetchKey == s.lastFetchKey
            && r.state.availableMakes == s.availableMakes && r.state.availableModels == s.availableModels
    ensures outcome.VehicleSuccess? ==>
              r.returned == Some(outcome.vehicle) && r.state.currentVehicle == r.returned && r.state.error.None?
    ensures outcome.VehicleFailure? ==>
              r.returned.None? && r.state.currentVehicle == s.currentVehicle
              && r.state.error == Some(ErrorMessage(outcome.thrown, FetchVehicleFallback))
  {
    var started := s.(loading := true, error := None);
    match outcome
    case VehicleSuccess(v) => VehicleFetched(started.(currentVehicle := Some(v), loading := false), Some(v), url)
    case VehicleFailure(thrown) =>
      VehicleFetched(started.(error := Some(ErrorMessage(thrown, FetchVehicleFallback)), loading := false), None, url)
  }

  /** `fetchVehicleById`. */
  function FetchVehicleById(s: StoreState, apiBase: string, id: int, outcome: VehicleOutcome): (r: VehicleFetched)
    ensures r.request == VehicleByIdUrl(apiBase, id)
    ensures !r.state.loading
    ensures r.state.vehicles == s.vehicles && r.state.initialLoadComplete == s.initialLoadComplete
    ensures outcome.VehicleSuccess? ==>
              r.returned == Some(outcome.vehicle) && r.state.currentVehicle == r.returned && r.state.error.None?
    ensures outcome.VehicleFailure? ==>
              r.returned.None? && r.state.currentVehicle == s.currentVehicle
              && r.state.error == Some(ErrorMessage(outcome.thrown, FetchVehicleFallback))
    ensures r.state.(currentVehicle := s.currentVehicle, error := s.error, loading := s.loading) == s
  {
    LoadVehicle(s, VehicleByIdUrl(apiBase, id), outcome)
  }

  /** `fetchVehicleByVRM`. */
  function FetchVehicleByVrm(s: StoreState, apiBase: string, vrm: string, outcome: VehicleOutcome): (r: VehicleFetched)
    ensures r.request == VehicleByVrmUrl(apiBase, vrm)
    ensures !r.state.loading
    ensures r.state.vehicles == s.vehicles && r.state.initialLoadComplete == s.initialLoadComplete
    ensures outcome.VehicleSuccess? ==>
              r.returned == Some(outcome.vehicle) && r.state.currentVehicle == r.returned && r.state.error.None?
    ensures outcome.VehicleFailure? ==>
              r.returned.None? && r.state.currentVehicle == s.currentVehicle
              && r.state.error == Some(ErrorMessage(outcome.thrown, FetchVehicleFallback))
    ensures r.state.(currentVehicle := s.currentVehicle, error := s.error, loading := s.loading) == s
  {
    LoadVehicle(s, VehicleByVrmUrl(apiBase, vrm), outcome)
  }

  /** Looking a vehicle up, whatever the answer, does not force the list to be fetched again. */
  lemma VehicleLookupKeepsListCache(s: StoreState, apiBase: string, id: int, vrm: string, outcome: VehicleOutcome)
    ensures IsRepeat(FetchVehicleById(s, apiBase, id, outcome).state, apiBase) == IsRepeat(s, apiBase)
    ensures IsRepeat(FetchVehicleByVrm(s, apiBase, vrm, outcome).state, apiBase) == IsRepeat(s, apiBase)
  {
    assert FetchVehicleById(s, apiBase, id, outcome).state.lastFetchKey == s.lastFetchKey;
    assert FetchVehicleByVrm(s, apiBase, vrm, outcome).state.lastFetchKey == s.lastFetchKey;
  }

  // ---------------------------------------------------------------------------
  // Makes and models offered by the filter form
  // ---------------------------------------------------------------------------

  /** `vehicles.map(v => v.make)`. */
  function MakesOf(vs: seq<Vehicle>): (r: seq<string>)
    ensures forall m :: m in r <==> exists v :: v in vs && v.make == m
  {
    if |vs| == 0 then [] else assert vs == [vs[0]] + vs[1..]; [vs[0].make] + MakesOf(vs[1..])
  }

  /** `vehicles.map(v => v.model)`. */
  function ModelsOf(vs: seq<Vehicle>): (r: seq<string>)
    ensures forall m :: m in r <==> exists v :: v in vs && v.model == m
  {
    if |vs| == 0 then [] else assert vs == [vs[0]] + vs[1..]; [vs[0].model] + ModelsOf(vs[1..])
  }

  /** `vehicles.filter(v => v.make === make).map(v => v.model)`. */
  function ModelsOfMake(vs: seq<Vehicle>, make: string): (r: seq<string>)
    ensures forall m :: m in r <==> exists v :: v in vs && v.make == make && v.model == m
  {
    if |vs| == 0 then []
    else
      assert vs == [vs[0]] + vs[1..];
      (if vs[0].make == make then [vs[0].model] else []) + ModelsOfMake(vs[1..], make)
  }

  /** `[...new Set(...)].sort()`: each value once, in ascending order. */
  function UniqueSorted(xs: seq<string>): (r: seq<string>)
    ensures StringOrder.StrictlyIncreasing(r)
    ensures forall y :: y in r <==> y in xs
  {
    StringOrder.SortedDistinct(xs)
  }

  /** `fetchAvailableMakes`: derived from the loaded page, and only when it is non-empty. */
  function FetchAvailableMakes(s: StoreState): (r: StoreState)
    ensures |s.vehicles| == 0 ==> r == s
    ensures r.(availableMakes := s.availableMakes) == s
    ensures |s.vehicles| > 0 ==> StringOrder.StrictlyIncreasing(r.availableMakes)
    ensures |s.vehicles| > 0 ==>
              forall m :: m in r.availableMakes <==> exists v :: v in s.vehicles && v.make == m
  {
    if |s.vehicles| > 0 then s.(availableMakes := UniqueSorted(MakesOf(s.vehicles))) else s
  }

  /** The make filter of `fetchAvailableModels`: `undefined` and `""` select every listing. */
  predicate NoMake(make: Option<string>) {
    make.None? || make.value == ""
  }

  /** `fetchAvailableModels(make?)`. */
  function FetchAvailableModels(s: StoreState, make: Option<string>): (r: StoreState)
    ensures |s.vehicles| == 0 ==> r == s
    ensures r.(availableModels := s.availableModels) == s
    ensures |s.vehicles| > 0 ==> StringOrder.StrictlyIncreasing(r.availableModels)
    ensures |s.vehicles| > 0 && NoMake(make) ==>
              forall m :: m in r.availableModels <==> exists v :: v in s.vehicles && v.model == m
    ensures |s.vehicles| > 0 && !NoMake(make) ==>
              forall m :: m in r.availableModels <==>
                exists v :: v in s.vehicles && v.make == make.value && v.model == m
  {
    if |s.vehicles| > 0 then
      var models := if NoMake(make) then ModelsOf(s.vehicles) else ModelsOfMake(s.vehicles, make.value);
      s.(availableModels := UniqueSorted(models))
    else s
  }

  /** The derived list is the only sorted duplicate-free list of those makes. */
  lemma AvailableMakesCanonical(s: StoreState, makes: seq<string>)
    requires |s.vehicles| > 0
    requires StringOrder.StrictlyIncreasing(makes)
    requires forall m :: m in makes <==> exists v :: v in s.vehicles && v.make == m
    ensures FetchAvailableMakes(s).availableMakes == makes
  {
    StringOrder.StrictlyIncreasingUnique(makes, FetchAvailableMakes(s).availableMakes);
  }

  /** Deriving the makes twice gives what deriving them once gave. */
  lemma FetchAvailableMakesIdempotent(s: StoreState)
    ensures FetchAvailableMakes(FetchAvailableMakes(s)) == FetchAvailableMakes(s)
  {
  }

  // ---------------------------------------------------------------------------
  // Filter criteria
  // ---------------------------------------------------------------------------

  /** `updateFilters(patch)`: a shallow merge of the patch into the criteria. */
  function UpdateFilters(s: StoreState, patch: VehicleFilters): (r: StoreState)
    ensures forall f :: Get(r.filters, f) == if Get(patch, f).Some? then Get(patch, f) else Get(s.filters, f)
    ensures r.(filters := s.filters) == s
  {
    s.(filters := Merge(s.filters, patch))
  }

  /** `resetFilters`: the initial criteria and no client-side filter. */
  function ResetFilters(s: StoreState): (r: StoreState)
    ensures r.filters == InitialState.filters && r.clientFilter == InitialState.clientFilter
    ensures r.(filters := s.filters, clientFilter := s.clientFilter) == s
  {
    s.(filters := DefaultFilters, clientFilter := "")
  }

  lemma ResetFiltersIdempotent(s: StoreState)
    ensures ResetFilters(ResetFilters(s)) == ResetFilters(s)
  {
  }

  /** After a reset, an update yields the defaults merged with the patch. */
  lemma ResetThenUpdate(s: StoreState, patch: VehicleFilters)
    ensures UpdateFilters(ResetFilters(s), patch).filters == Merge(DefaultFilters, patch)
    ensures UpdateFilters(ResetFilters(s), patch).clientFilter == ""
  {
  }

  /** Two updates in turn are one update with the merged patch. */
  lemma UpdateFiltersCompose(s: StoreState, p: VehicleFilters, q: VehicleFilters)
    ensures UpdateFilters(UpdateFilters(s, p), q) == UpdateFilters(s, Merge(p, q))
  {
    MergeAssociative(s.filters, p, q);
  }

  // ---------------------------------------------------------------------------
  // Paging
  // ---------------------------------------------------------------------------

  /**
   * A paging action's result: the settled state, the list request it sent (none
   * when skipped or repeated) and the background prefetch it sent.
   */
  datatype PageStep = PageStep(state: StoreState, fetch: Option<FetchKey>, prefetch: Option<FetchKey>)

  /** `page! >= last_page`, where an `undefined` page compares false. */
  predicate AtOrPastLastPage(filters: VehicleFilters, meta: ResponseMetadata) {
    filters.page.Some? && filters.page.value >= meta.last_page
  }

  /**
   * `prefetchNextPage`: the request for the following page, if there is one.
   * It reads the store but never writes it.
   */
  function PrefetchNextPage(s: StoreState, apiBase: string): (r: Option<FetchKey>)
    ensures r.None? <==> s.metadata.None? || AtOrPastLastPage(s.filters, s.metadata.value)
    ensures r.Some? ==> r.value == ListRequest(apiBase, s.filters.(page := Some(OrElse(s.filters.page, 1) + 1)))
    ensures r.Some? ==> r.value.apiBase == apiBase
    ensures r.Some? ==> Param(ApiName(Page), Decimal.IntToDecimal(OrElse(s.filters.page, 1) + 1)) in r.value.query
    ensures r.Some? ==> forall p: Param :: p.name != ApiName(Page) ==>
              (p in r.value.query <==> p in ListRequest(apiBase, s.filters).query)
  {
    if s.metadata.None? || AtOrPastLastPage(s.filters, s.metadata.value) then None
    else
      var ahead := s.filters.(page := Some(OrElse(s.filters.page, 1) + 1));
      WithPageKeepsOthers(s.filters, ahead.page);
      BuildQueryOffPage(ahead, s.filters);
      ParamOfKeptField(ahead, Page);
      Some(ListRequest(apiBase, ahead))
  }

  /**
   * Move to `page`, fetch it, and prefetch the one after. The prefetch runs while
   * the fetch is still waiting for its response, so it sees the old metadata.
   */
  function GoToPage(s: StoreState, apiBase: string, page: int, outcome: ListOutcome): (r: PageStep)
    ensures r.state.filters == s.filters.(page := Some(page))
    ensures r.fetch == FetchVehicles(s.(filters := s.filters.(page := Some(page))), apiBase, outcome).request
    ensures r.prefetch == PrefetchNextPage(s.(filters := s.filters.(page := Some(page))), apiBase)
  {
    var moved := s.(filters := s.filters.(page := Some(page)));
    var prefetch := PrefetchNextPage(moved, apiBase);
    var fetched := FetchVehicles(moved, apiBase, outcome);
    PageStep(fetched.state, fetched.request, prefetch)
  }

  /**
   * The prefetch reads the metadata from before the response: it is sent exactly
   * when the old metadata allows it, whereas a prefetch issued after a sent fetch
   * had settled would follow the new `last_page`.
   */
  lemma PrefetchSeesMetadataBeforeResponse(s: StoreState, apiBase: string, page: int, data: seq<Vehicle>, meta: ResponseMetadata)
    ensures var r := GoToPage(s, apiBase, page, ListSuccess(data, meta));
            r.prefetch.Some? <==> s.metadata.Some? && page < s.metadata.value.last_page
    ensures var r := GoToPage(s, apiBase, page, ListSuccess(data, meta));
            r.fetch.Some? ==> (PrefetchNextPage(r.state, apiBase).Some? <==> page < meta.last_page)
  {
  }

  /** `setPage(page)`: no bounds check at all. */
  function SetPage(s: StoreState, apiBase: string, page: int, outcome: ListOutcome): (r: PageStep)
    ensures r.state.filters.page == Some(page)
    ensures forall f :: f != Page ==> Get(r.state.filters, f) == Get(s.filters, f)
    ensures r.fetch.None? || r.fetch == Some(ListRequest(apiBase, r.state.filters))
    ensures var moved := s.(filters := r.state.filters);
            && (r.fetch.None? <==> IsRepeat(moved, apiBase))
            && r.prefetch == PrefetchNextPage(moved, apiBase)
            && r.state == FetchVehicles(moved, apiBase, outcome).state
    ensures !r.state.loading && r.state.initialLoadComplete
  {
    WithPageKeepsOthers(s.filters, Some(page));
    GoToPage(s, apiBase, page, outcome)
  }

  /** `nextPage`: advance only while metadata exists and the page is below the last one. */
  function NextPage(s: StoreState, apiBase: string, outcome: ListOutcome): (r: PageStep)
    ensures s.metadata.None? || s.filters.page.None? || s.filters.page.value >= s.metadata.value.last_page ==>
              r == PageStep(s, None, None)
    ensures s.metadata.Some? && s.filters.page.Some? && s.filters.page.value < s.metadata.value.last_page ==>
              r.state.filters.page == Some(OrElse(s.filters.page, 1) + 1)
              && r.state.filters == s.filters.(page := r.state.filters.page)
    ensures s.metadata.Some? && s.filters.page.Some? && s.filters.page.value < s.metadata.value.last_page ==>
              var moved := s.(filters := r.state.filters);
              && (r.fetch.None? <==> IsRepeat(moved, apiBase))
              && (r.fetch.Some? ==> r.fetch.value == ListRequest(apiBase, r.state.filters))
              && r.prefetch == PrefetchNextPage(moved, apiBase)
              && r.state == FetchVehicles(moved, apiBase, outcome).state
  {
    if s.metadata.Some? && s.filters.page.Some? && s.filters.page.value < s.metadata.value.last_page then
      GoToPage(s, apiBase, OrElse(s.filters.page, 1) + 1, outcome)
    else PageStep(s, None, None)
  }

  /** `previousPage`: step back only from a page above 1. */
  function PreviousPage(s: StoreState, apiBase: string, outcome: ListOutcome): (r: PageStep)
    ensures s.filters.page.None? || s.filters.page.value <= 1 ==> r == PageStep(s, None, None)
    ensures s.filters.page.Some? && s.filters.page.value > 1 ==>
              r.state.filters == s.filters.(page := Some(s.filters.page.value - 1))
    ensures s.filters.page.Some? && s.filters.page.value > 1 ==>
              var moved := s.(filters := r.state.filters);
              && (r.fetch.None? <==> IsRepeat(moved, apiBase))
              && (r.fetch.Some? ==> r.fetch.value == ListRequest(apiBase, r.state.filters))
              && r.prefetch == PrefetchNextPage(moved, apiBase)
              && r.state == FetchVehicles(moved, apiBase, outcome).state
  {
    if s.filters.page.Some? && s.filters.page.value > 1 then
      GoToPage(s, apiBase, s.filters.page.value - 1, outcome)
    else PageStep(s, None, None)
  }

  /** The page lies within the pages the metadata reports. */
  predicate PageInRange(filters: VehicleFilters, meta: ResponseMetadata) {
    filters.page.Some? && 1 <= filters.page.value <= meta.last_page
  }

  /** From a page within range, moving forward stays within the range it was checked against. */
  lemma NextPageKeepsRange(s: StoreState, apiBase: string, outcome: ListOutcome)
    requires s.metadata.Some? && PageInRange(s.filters, s.metadata.value)
    ensures PageInRange(NextPage(s, apiBase, outcome).state.filters, s.metadata.value)
  {
  }

  /** From a page within range, moving back stays within that range. */
  lemma PreviousPageKeepsRange(s: StoreState, apiBase: string, outcome: ListOutcome)
    requires s.metadata.Some? && PageInRange(s.filters, s.metadata.value)
    ensures PageInRange(PreviousPage(s, apiBase, outcome).state.filters, s.metadata.value)
  {
  }

  /** Next then previous returns to the page it started from. */
  lemma NextThenPrevious(s: StoreState, apiBase: string, o1: ListOutcome, o2: ListOutcome)
    requires s.metadata.Some? && PageInRange(s.filters, s.metadata.value)
    requires s.filters.page.value < s.metadata.value.last_page
    ensures PreviousPage(NextPage(s, apiBase, o1).state, apiBase, o2).state.filters == s.filters
  {
    var p := s.filters.page.value;
    var after := NextPage(s, apiBase, o1).state;
    assert after.filters == s.filters.(page := Some(p + 1));
  }

  /**
   * The prefetch a move forward sends is the request the next move forward will
   * make: it warms exactly the page the user goes to next.
   */
  lemma PrefetchIsNextRequest(s: StoreState, apiBase: string, outcome: ListOutcome)
    requires PrefetchNextPage(s, apiBase).Some? && s.filters.page.Some?
    ensures PrefetchNextPage(s, apiBase) == Some(ListRequest(apiBase, NextPage(s, apiBase, outcome).state.filters))
  {
  }

  /**
   * With no page in the criteria `nextPage` does nothing, yet the prefetch guard
   * lets the request for page 2 through.
   */
  lemma PrefetchWithoutPage(s: StoreState, apiBase: string, outcome: ListOutcome)
    requires s.metadata.Some? && s.filters.page.None?
    ensures NextPage(s, apiBase, outcome) == PageStep(s, None, None)
    ensures PrefetchNextPage(s, apiBase) == Some(ListRequest(apiBase, s.filters.(page := Some(2))))
  {
  }

  /** Page 0 is falsy, so moving forward from it lands on page 2, not 1. */
  lemma NextPageFromZero(s: StoreState, apiBase: string, outcome: ListOutcome)
    requires s.metadata.Some? && s.filters.page == Some(0) && 0 < s.metadata.value.last_page
    ensures NextPage(s, apiBase, outcome).state.filters.page == Some(2)
  {
  }
}

=== FILE: vehicle_types.dfy ===
/**
 * The records the client logic reads: a vehicle listing reduced to the fields
 * the store and the card use, the pagination metadata of a list response, and
 * the filter criteria with their twelve optional fields.
 */
module VehicleTypes {
  import opened Wrappers

  /** One image of a listing; only the medium-resolution URL is displayed. */
  datatype MediaUrl = MediaUrl(medium: string)

  datatype Vehicle = Vehicle(
    advert_classification: string,
    make: string,
    model: string,
    media_urls: seq<MediaUrl>,
    has_offer: bool)

  datatype ResponseMetadata = ResponseMetadata(
    current_page: int,
    last_page: int,
    per_page: int,
    total: int,
    all_total: Option<int>,
    total_new_vehicles: Option<int>,
    total_used_vehicles: Option<int>,
    offer_vehicles: Option<int>)

  /** JavaScript's `n || d` on an optional number: a missing value and 0 both give `d`. */
  function OrElse(n: Option<int>, d: int): (r: int)
    ensures n.Some? && n.value != 0 ==> r == n.value
    ensures n.None? || n.value == 0 ==> r == d
  {
    if n.None? || n.value == 0 then d else n.value
  }

  /**
   * Filter criteria. The store's object always carries all twelve keys, in the
   * order declared here, and spreads keep existing keys in place; so in the
   * store's criteria a `None` field is a key holding `undefined`. In a patch, a
   * `None` field is a key the patch leaves out. The empty string is how the
   * store spells "no constraint".
   */
  datatype VehicleFilters = VehicleFilters(
    page: Option<int>,
    resultsPerPage: Option<int>,
    advertClassification: Option<string>,
    make: Option<string>,
    model: Option<string>,
    fuelType: Option<string>,
    transmission: Option<string>,
    bodyType: Option<string>,
    minPrice: Option<string>,
    maxPrice: Option<string>,
    minYear: Option<string>,
    maxYear: Option<string>)

  /** The filter keys, in the order the store's filter object declares them. */
  datatype Field =
    | Page | ResultsPerPage | AdvertClassification | Make | Model | FuelType
    | Transmission | BodyType | MinPrice | MaxPrice | MinYear | MaxYear

  /** Position of a key in the filter object. */
  function Rank(f: Field): (k: nat)
    ensures k < 12
  {
    match f
    case Page => 0
    case ResultsPerPage => 1
    case AdvertClassification => 2
    case Make => 3
    case Model => 4
    case FuelType => 5
    case Transmission => 6
    case BodyType => 7
    case MinPrice => 8
    case MaxPrice => 9
    case MinYear => 10
    case MaxYear => 11
  }

  /** The key after `f` in the filter object, if any. */
  function NextField(f: Field): (g: Option<Field>)
    ensures g.Some? <==> Rank(f) < 11
    ensures g.Some? ==> Rank(g.value) == Rank(f) + 1
  {
    match f
    case Page => Some(ResultsPerPage)
    case ResultsPerPage => Some(AdvertClassification)
    case AdvertClassification => Some(Make)
    case Make => Some(Model)
    case Model => Some(FuelType)
    case FuelType => Some(Transmission)
    case Transmission => Some(BodyType)
    case BodyType => Some(MinPrice)
    case MinPrice => Some(MaxPrice)
    case MaxPrice => Some(MinYear)
    case MinYear => Some(MaxYear)
    case MaxYear => None
  }

  lemma RankInjective(f: Field, g: Field)
    requires Rank(f) == Rank(g)
    ensures f == g
  {
  }

  /** A filter value: the two numeric keys hold numbers, the rest strings. */
  datatype FilterValue = Num(n: int) | Text(s: string)

  /** Reading one key of the filter object. */
  function Get(filters: VehicleFilters, f: Field): Option<FilterValue> {
    match f
    case Page => if filters.page.Some? then Some(Num(filters.page.value)) else None
    case ResultsPerPage =>
      if filters.resultsPerPage.Some? then Some(Num(filters.resultsPerPage.value)) else None
    case AdvertClassification => TextOf(filters.advertClassification)
    case Make => TextOf(filters.make)
    case Model => TextOf(filters.model)
    case FuelType => TextOf(filters.fuelType)
    case Transmission => TextOf(filters.transmission)
    case BodyType => TextOf(filters.bodyType)
    case MinPrice => TextOf(filters.minPrice)
    case MaxPrice => TextOf(filters.maxPrice)
    case MinYear => TextOf(filters.minYear)
    case MaxYear => TextOf(filters.maxYear)
  }

  function TextOf(o: Option<string>): Option<FilterValue> {
    if o.Some? then Some(Text(o.value)) else None
  }

  /** Two filter objects that agree on every key are the same object. */
  lemma FiltersExtensional(a: VehicleFilters, b: VehicleFilters)
    requires forall f :: Get(a, f) == Get(b, f)
    ensures a == b
  {
    assert Get(a, Page) == Get(b, Page);
    assert Get(a, ResultsPerPage) == Get(b, ResultsPerPage);
    assert Get(a, AdvertClassification) == Get(b, AdvertClassification);
    assert Get(a, Make) == Get(b, Make);
    assert Get(a, Model) == Get(b, Model);
    assert Get(a, FuelType) == Get(b, FuelType);
    assert Get(a, Transmission) == Get(b, Transmission);
    assert Get(a, BodyType) == Get(b, BodyType);
    assert Get(a, MinPrice) == Get(b, MinPrice);
    assert Get(a, MaxPrice) == Get(b, MaxPrice);
    assert Get(a, MinYear) == Get(b, MinYear);
    assert Get(a, MaxYear) == Get(b, MaxYear);
  }

  /** Setting the page leaves every other key as it was. */
  lemma WithPageKeepsOthers(a: VehicleFilters, p: Option<int>)
    ensures forall f :: f != Page ==> Get(a.(page := p), f) == Get(a, f)
  {
    forall f | f != Page
      ensures Get(a.(page := p), f) == Get(a, f)
    {
    }
  }

  /** The store's initial and reset criteria: page 1, ten per page, everything else empty. */
  const DefaultFilters: VehicleFilters :=
    VehicleFilters(Some(1), Some(10), Some(""), Some(""), Some(""), Some(""),
                   Some(""), Some(""), Some(""), Some(""), Some(""), Some(""))

  /** A partial filter object with no keys at all. */
  const NoFilters: VehicleFilters :=
    VehicleFilters(None, None, None, None, None, None, None, None, None, None, None, None)

  function Override<T>(base: Option<T>, patch: Option<T>): Option<T> {
    if patch.Some? then patch else base
  }

  /** `{ ...base, ...patch }`: keys present in the patch win, every other key keeps its value. */
  function Merge(base: VehicleFilters, patch: VehicleFilters): (r: VehicleFilters)
    ensures forall f :: Get(r, f) == (if Get(patch, f).Some? then Get(patch, f) else Get(base, f))
  {
    VehicleFilters(
      Override(base.page, patch.page),
      Override(base.resultsPerPage, patch.resultsPerPage),
      Override(base.advertClassification, patch.advertClassification),
      Override(base.make, patch.make),
      Override(base.model, patch.model),
      Override(base.fuelType, patch.fuelType),
      Override(base.transmission, patch.transmission),
      Override(base.bodyType, patch.bodyType),
      Override(base.minPrice, patch.minPrice),
      Override(base.maxPrice, patch.maxPrice),
      Override(base.minYear, patch.minYear),
      Override(base.maxYear, patch.maxYear))
  }

  /** Applying two patches in turn is applying their merge once. */
  lemma MergeAssociative(a: VehicleFilters, p: VehicleFilters, q: VehicleFilters)
    ensures Merge(Merge(a, p), q) == Merge(a, Merge(p, q))
  {
    forall f
      ensures Get(Merge(Merge(a, p), q), f) == Get(Merge(a, Merge(p, q)), f)
    {
    }
    FiltersExtensional(Merge(Merge(a, p), q), Merge(a, Merge(p, q)));
  }

  /** Applying the same patch again changes nothing. */
  lemma MergeIdempotent(a: VehicleFilters, p: VehicleFilters)
    ensures Merge(Merge(a, p), p) == Merge(a, p)
  {
    forall f
      ensures Get(Merge(Merge(a, p), p), f) == Get(Merge(a, p), f)
    {
    }
    FiltersExtensional(Merge(Merge(a, p), p), Merge(a, p));
  }
}

=== FILE: wrappers.dfy ===
/** Optional values, standing in for the `undefined` / `null` of the JavaScript store. */
module Wrappers {

  datatype Option<+T> = None | Some(value: T)
}
